=== FILE: README.md ===
# stegfile fragment distribution, in Dafny

stegfile spreads a payload over several cover images with the `steghide`
tool. This project models the part of it that does not talk to `steghide`:

- **Scrambled placement** (`SplitScrambled` in `split.rs`). `split` deals the
  payload bytes round-robin into one bucket per image. `join` puts them back by
  stride placement into a zero-filled buffer.
- **Framing** (`mul_embed` in `embed.rs`). Bucket i gets an 8-byte big-endian
  header holding i. Part i is then handed to image i.
- **Reassembly** (`mul_extract` in `extract.rs`). Each recovered piece is placed
  into the slot its header names. Pieces that are exactly 8 bytes are skipped.
  The slots are then joined.
- **Capacity** (`capacity.rs`). This covers reading the capacity line of
  steghide's `--info` report, the unit table, and the two aggregates
  `MulFullCapacity` (sum of `capacity - 8`) and `MulScrambledCapacity`
  (smallest `capacity - 8` times the number of images).

Every Rust panic the core can reach is a `Failure` of a `Result`, not a
precondition. The one exception is the number parse of the capacity value,
listed under "## Left out". This covers an index out of bounds, an `unwrap` on `None`, and
debug-build `u64` overflow or underflow. The panics are:

- `split` with no images but some payload;
- a `join` write past the end of the buffer;
- a piece shorter than its header;
- a header index past the last slot;
- a missing capacity line or token, which `mul_embed` and both capacity
  aggregates meet at the first image whose report cannot be read;
- `capacity - 8` below zero;
- a sum or product that leaves `u64`.

The files:

- `common.dfy`: bytes, `u64`, `Result`/`Option` and `Panic`. Its `Arith`
  module holds the stride offset `Offset(i, j, n) = i + j * n` and the
  division facts about it.
- `big_endian.dfy`: `to_be_bytes` / `from_be_bytes`.
- `split_scrambled.dfy`: `split`, `join` (as a function, and as the
  array-filling loops), the round trip, and the documentation example.
- `framing.dfy`, `embed.dfy`: the header and the data flow of `mul_embed`.
- `extract.dfy`: the reorder loop of `mul_extract`. It also proves order
  independence and the end-to-end round trip.
- `text.dfy`: the Rust `str` operations the report parser uses. These are
  `lines`, `contains`, `split(':').nth(1)`, `trim` and `split_whitespace`.
- `capacity.dfy`: report parsing, the unit table and the aggregates.

Notes on what the code does:

- `split` has no capacity check and does no zero padding. It uses only the
  number of capacity values, never the values themselves.
- A recovered piece of exactly 8 bytes is skipped; a shorter one panics.
- `mul_extract` makes one slot per image it is given. A piece whose header
  names a slot at or past that count panics. When fewer images are given
  than were embedded into, whether that happens depends on which are left
  out. Leaving out the images with the highest indices panics nowhere:
  every slot is filled, the shape holds, and a wrong payload is returned.
  Otherwise a remaining piece names a slot past the count and panics. A
  slot no piece names stays empty, and `join` then panics unless the slots
  still have the round-robin shape.
- Both capacity aggregates subtract the 8 header bytes per image.
  `mul_embed` passes the raw capacities to `split`, which ignores them.

Two comments in the source are contradicted by the code:

- The `SplitScrambled` documentation lists the first bucket of "this is a text"
  over three buckets as "tss s". The loop produces "tss x" (`DocExample`).
- The `mul_extract` documentation says the images must be given in their
  original order. Reassembly does not depend on the order
  (`ReassembleOrderIndependent`, `EmbedThenExtract`).

## Model

| member | source | states |
|---|---|---|
| SplitScrambled.Split | src/steglib/split.rs:35-48 | One bucket per capacity entry. Bucket lengths sum to the payload length and have the round-robin shape. Byte j of bucket i is payload byte i + j·N. It panics exactly when there are no entries and the payload is non-empty. |
| SplitScrambled.SplitPlacesByte | src/steglib/split.rs:41-45 | Payload byte k is found in bucket k mod N at position k div N. |
| SplitScrambled.SplitIgnoresCapacityValues | src/steglib/split.rs:35-37 | Only the number of capacity entries matters, never their values. |
| SplitScrambled.SplitBalanced | src/steglib/split.rs:41-45 | Bucket lengths never increase with the bucket index, and any two differ by at most one. |
| SplitScrambled.BucketLenIff | src/steglib/split.rs:41-45 | Bucket i reaches length > j exactly when offset i + j·N is below the payload length. |
| SplitScrambled.SplitEmpty | src/steglib/split.rs:37-48 | An empty payload gives N empty buckets. |
| SplitScrambled.Deal | src/steglib/split.rs:40-45 | After the loop, every bucket's length is its round-robin share and every byte sits at its stride offset. |
| SplitScrambled.Join | src/steglib/split.rs:51-73 | It succeeds exactly when the piece lengths have the round-robin shape. The output length is the sum of the piece lengths, and byte j of piece i is at offset i + j·N. |
| SplitScrambled.InBoundsIffShape | src/steglib/split.rs:59-70 | Every write of `join` is in bounds if and only if the piece lengths are those `split` produces for their total. |
| SplitScrambled.JoinSplit | src/steglib/split.rs:35-73 | For a non-empty capacity list (or an empty payload), joining the split gives back the payload. |
| SplitScrambled.SumLengths | src/steglib/split.rs:52-55 | The first loop of `join` computes the summed piece length. |
| SplitScrambled.WritePiece | src/steglib/split.rs:62-67 | The inner loop writes each byte of one piece at its offset, or reports a write past the end, which means the piece lengths break the round-robin shape. |
| SplitScrambled.JoinInPlace | src/steglib/split.rs:51-73 | The array-filling loops of `join` return exactly what `Join` returns, panic included. |
| SplitScrambled.DocExample | src/steglib/split.rs:17-30 | "this is a text" over three buckets gives "tss x", "h  tt" and "iiae"; the first bucket is not the documented "tss s". |
| BigEndian.Decode | src/steglib/extract.rs:63-65 | `u64::from_be_bytes`: the value of a byte string, most significant byte first, is below 256 to the power of its length, so below 2^64 for a header. `EncodeDecode` pins the value. |
| BigEndian.Encode | src/steglib/embed.rs:55 | `to_be_bytes`: a value below 256^8 encodes to 8 bytes that decode back to it. |
| BigEndian.EncodeDecode | src/steglib/extract.rs:63-65 | Every 8-byte header is the encoding of the value it decodes to. |
| Framing.HeaderIndex | src/steglib/extract.rs:63-65 | The index read from the first 8 bytes is a `u64`. |
| Framing.Frame | src/steglib/embed.rs:54-56 | A framed bucket is 8 bytes longer than the bucket, its header reads back as the index and its body is the bucket. |
| Framing.UnframeFrame | src/steglib/extract.rs:63-69 | Every piece of at least 8 bytes is the framing of its own header index and body. |
| Framing.FrameInjective | src/steglib/embed.rs:54-56 | Different (index, bucket) pairs frame to different pieces. |
| Embed.ReadCapacities | src/steglib/embed.rs:40-43 | The push loop succeeds exactly when every image's capacity can be read. It then holds one raw capacity per image, in image order, with no header subtraction. |
| Embed.ReadCapacitiesFault | src/steglib/embed.rs:41-43 | When a read panics, the loop ends with the panic of the first image whose capacity cannot be read. |
| Embed.FramedParts | src/steglib/embed.rs:52-63 | Part i is bucket i behind the header i, with one part per bucket. |
| Embed.WorkItemsPairing | src/steglib/embed.rs:69-77 | Every part file `file_part_p` for p below the image count is sent to the pool by exactly one work item, and no item names a part that was not written. |
| Embed.DeliverOnePerImage | src/steglib/embed.rs:112-114 | With distinct image paths, each image receives exactly one delivery, and it is the part with the image's own index. |
| Embed.MulEmbed | src/steglib/embed.rs:40-63 | It fails exactly when some capacity cannot be read, or when there are no images but some payload. With every capacity read, the only failure is the `split` panic. Otherwise image i receives a fragment of at least 8 bytes whose header is i. |
| Embed.MulEmbedCapacityFault | src/steglib/embed.rs:40-43 | A capacity that cannot be read ends `mul_embed` with the panic of the first such image, before anything is split. |
| Embed.MulEmbedFragments | src/steglib/embed.rs:52-63 | The fragments written, in image order, are the framed buckets of the split. |
| Embed.MulEmbedIgnoresCapacities | src/steglib/embed.rs:40-47 | Once every capacity can be read, what is embedded does not depend on the values read. |
| Extract.Place | src/steglib/extract.rs:58-71 | For one piece: an 8-byte piece changes nothing, a shorter one panics, and an index past the last slot panics. Otherwise only slot `index` changes, to the body, and `total_size` grows by the body length. |
| Extract.LastCarrier | src/steglib/extract.rs:58-70 | The last piece carrying slot k, with no later piece carrying it. |
| Extract.SortAll | src/steglib/extract.rs:56-71 | The loop succeeds iff every piece is admissible. Slot k then holds the body of the last piece naming k, or nothing, so the last write wins. The loop also keeps `total_size` plus 8 per piece equal to the total piece length. |
| Extract.SortAllFault | src/steglib/extract.rs:58-69 | On failure the panic is the one of the first piece the loop cannot get past. |
| Extract.Reassemble | src/steglib/extract.rs:56-71 | There is one slot per recovered piece, filled as above. |
| Extract.MulExtract | src/steglib/extract.rs:56-79 | It succeeds exactly when every piece gets past the reorder loop and the slots (slot k holding the body of the last piece naming k) have the round-robin shape. Otherwise, once every piece gets past the loop, it is the `join` panic. On success, byte j of slot i is output byte i + j·n. |
| Extract.MulExtractFault | src/steglib/extract.rs:58-69 | A piece the loop cannot get past makes `mul_extract` panic as the first such piece does. |
| Extract.UniqueCarrier | src/steglib/extract.rs:58-70 | With distinct header indices, a piece carrying slot k is its last carrier. |
| Extract.ReassembleOrderIndependent | src/steglib/extract.rs:54-70 | With distinct header indices, any permutation of the pieces succeeds or fails alike and gives the same slots and total size. |
| Extract.FramedPartsDistinct | src/steglib/embed.rs:52-62 | The headers written are distinct: part i names slot i. |
| Extract.ReassembleFramed | src/steglib/extract.rs:56-70 | Reassembling the framed parts gives back the buckets. Empty buckets frame to bare headers, are skipped, and leave their slot empty. |
| Extract.EmbedThenExtract | src/steglib/extract.rs:56-79 | Extracting from the fragments `mul_embed` wrote, in any order, gives back the payload. |
| Extract.ExtractFramedSplit | src/steglib/extract.rs:56-79 | Extracting the framed buckets of any split, in image order, gives back the data. |
| Extract.HighestImageLeftOut | src/steglib/extract.rs:56-79 | Six bytes split over three images, with only the first two images' parts given back, extract without a panic. The result is bytes 0, 1, 3 and 4, which is not a prefix of the input unless bytes 2 to 4 are equal. |
| Capacity.UnitMultiplier | src/steglib/capacity.rs:24-30 | "Byte" is 1, "KB" 1000, "MB" 10^6 and "GB" 10^9. Any other unit counts as 1. |
| Capacity.UnitLadder | src/steglib/capacity.rs:24-30 | Each unit is a thousand times the one below it. |
| Capacity.ParseCapacityLine | src/steglib/capacity.rs:13-20 | It panics with no field exactly when there is no colon, with no value exactly when the trimmed second `:`-field has no whitespace token, and with no unit exactly when it has one. It succeeds exactly when there are two or more tokens, and then reads the first two as the value and unit. |
| Capacity.ParseCapacityReport | src/steglib/capacity.rs:9-20 | It fails with no capacity line exactly when no line mentions "capacity". Otherwise its outcome is that of parsing the first line that mentions it. |
| Capacity.ParseCapacityLineOf | src/steglib/capacity.rs:13-20 | A line `<name>: <value> <unit>` reads back as its value and unit. |
| Capacity.ParseCapacityReportOf | src/steglib/capacity.rs:9-20 | A report is read from its first line mentioning the capacity. Lines before it are skipped and lines after it are ignored. |
| Capacity.Readings | src/steglib/capacity.rs:64-66 | The capacities read in loop order before the first read that panics: entry i is the value read for image i, and the read after the last entry panics. |
| Capacity.FullCapacity | src/steglib/capacity.rs:76-87 | It returns the sum of `capacity - 8` exactly when every read succeeds, no capacity is below 8 and the sum fits `u64`. Otherwise it panics at the first pass that cannot complete. That is the read's own panic when the arithmetic on the earlier images went through, else the subtraction or addition overflow at the first image where it fails. |
| Capacity.SmallestHeadroomLoop | src/steglib/capacity.rs:62-68 | The loop computes the smallest `capacity - 8` starting from `u64::MAX` exactly when every read succeeds and no capacity is below 8. Otherwise it panics at the first pass that cannot complete, as a read panic or a subtraction overflow. |
| Capacity.ScrambledCapacity | src/steglib/capacity.rs:60-71 | It returns the smallest `capacity - 8` times the image count when every read succeeds, no capacity is below 8 and the product fits `u64`. Otherwise it panics as the loop does, or with a multiplication overflow. |
| Capacity.ScrambledAtMostFull | src/steglib/capacity.rs:44-56 | The scrambled capacity never exceeds the full capacity: min·n ≤ Σ. |
| Capacity.ScrambledPayloadFits | src/steglib/capacity.rs:44-47 | A payload no larger than the scrambled capacity splits into buckets that each fit, with their header, in their image. |
| Capacity.NoImages | src/steglib/capacity.rs:60-87 | With no images both capacities are 0, since the `u64::MAX` seed is multiplied by 0. |
| Text.Lines | src/steglib/capacity.rs:9 | `lines`: no line contains a line feed, and the empty text has no lines. |
| Text.LinesUnterminated | src/steglib/capacity.rs:9 | The final line ending is optional: a last line without a line feed comes back whole after the terminated ones. |
| Text.LinesJoinLines | src/steglib/capacity.rs:9 | Splitting lines joined by line feeds gives them back. |
| Text.LinesCrlf | src/steglib/capacity.rs:9 | A CRLF line ending is read like a bare line feed. |
| Text.Contains | src/steglib/capacity.rs:10 | `line.contains("capacity")`: the pattern occurs at some position of the line. |
| Text.FindFirst | src/steglib/capacity.rs:9-11 | It returns the first line containing the pattern, or none exactly when no line contains it. |
| Text.SecondField | src/steglib/capacity.rs:13-15 | `split(':').nth(1)`: none exactly when there is no colon. Otherwise it returns the colon-free text after the first colon, up to the next colon or the end. |
| Text.SecondFieldOf | src/steglib/capacity.rs:13-15 | After a colon-free name, the field is recovered whatever follows the next colon. |
| Text.Trim | src/steglib/capacity.rs:16 | `trim` returns a slice with only whitespace around it, starting and ending with non-whitespace unless empty. |
| Text.TrimIdempotent | src/steglib/capacity.rs:16 | Trimming twice is trimming once. |
| Text.Tokens | src/steglib/capacity.rs:18-20 | `split_whitespace` yields no token exactly when the text is all whitespace. `TokensSkipWhitespace` and `TokensCons` fix every other input: leading whitespace is skipped, then the first run of non-whitespace is the first token. |
| Text.TokensSkipWhitespace | src/steglib/capacity.rs:18-20 | Leading whitespace of any kind and length, tabs and repeated spaces included, does not change the tokens. |
| Text.TokensAreWords | src/steglib/capacity.rs:18-20 | Every `split_whitespace` token is non-empty and whitespace-free. |
| Text.TokensJoinSpaced | src/steglib/capacity.rs:18-20 | `split_whitespace` gives back non-empty whitespace-free words joined by single spaces. |

## Left out

- The `steghide` process calls (`steghide_embed`, `steghide_extract`, the `--info` call in `one_file_capacity`) are not modelled. The outcome of reading each image's capacity (a value or a panic), the report text and the recovered pieces are parameters instead.
- The worker pool of `mul_embed` (threads, channel, `Arc`/`Mutex`) only changes timing. The deliveries are returned in image order.
- `TempDir`, the part files, `write_data_to_file` and all `println!` output are file and console I/O, so they are not modelled.
- `src/main.rs`, `src/steglib/cli.rs` and `src/steglib/util.rs` (argument parsing, directory walk, mode dispatch) are not part of this model.
- `SplitChunks` is named by `main.rs` but defined in no shown file, so no chunked policy is modelled.
- `mul_embed` calls `T::split_to_bins`, which the `Split` trait does not declare. It is modelled as the trait's `split`.
- Capacity.ParseCapacityLine: the `f64` parse of the value and the `(value * multiplier) as u64` conversion are floating point. The reading keeps the value token as text with the integer multiplier. So the panic of `value_str.parse().unwrap()` (capacity.rs:21) on a value token that is not a number is not modelled: "capacity: n/a KB" panics in the source but parses here.
- Extract.SortAll: `total_size` is an unbounded integer; `usize` overflow of the running sum is not modelled.
- SplitScrambled.Join: the offset `offset + piece_num * bucket_count` is an unbounded integer; its `usize` overflow is not modelled.
- Embed.MulEmbed: requires at most 2^64 images, because the header is the `u64` image index.
- `usize` is taken to be 64 bits wide, so the header is 8 bytes (`Framing.HEADER_LEN`). On a 32-bit target `index.to_be_bytes()` writes a 4-byte header while extraction still reads 8 bytes. That mismatch is not modelled.
- `one_file_capacity` is a parameter of `Embed.MulEmbed` returning a capacity or a panic, and the capacity aggregates take its outcome for each image. How it reads a report is modelled separately by `Capacity.ParseCapacityReport`, without the `f64` conversion that would join the two.
- Release builds wrap around on `u64` overflow instead of panicking. Only the debug-build panics are modelled.

=== FILE: big_endian.dfy ===
/**
 * Fixed-width big-endian byte encoding of unsigned integers, as produced by
 * `usize::to_be_bytes` and read back by `u64::from_be_bytes`.
 */
module BigEndian {
  import opened Common
  import Arith

  function Pow256(width: nat): (r: nat)
    ensures r >= 1
  {
    if width == 0 then 1 else 256 * Pow256(width - 1)
  }

  lemma Pow256Of8()
    ensures Pow256(8) == U64_LIMIT
  {
  }

  /** The value of `bytes` read most significant byte first. */
  function Decode(bytes: seq<byte>): (x: nat)
    ensures x < Pow256(|bytes|)
  {
    if |bytes| == 0 then 0
    else
      var high := Decode(bytes[..|bytes| - 1]);
      assert high * 256 + bytes[|bytes| - 1] <= (Pow256(|bytes| - 1) - 1) * 256 + 255;
      high * 256 + bytes[|bytes| - 1]
  }

  /** `x` written in `width` bytes, most significant byte first. */
  function Encode(x: nat, width: nat): (bytes: seq<byte>)
    requires x < Pow256(width)
    ensures |bytes| == width
    ensures Decode(bytes) == x
  {
    if width == 0 then []
    else
      assert x / 256 < Pow256(width - 1) by {
        Arith.DivBound(Pow256(width - 1), x, 256);
      }
      var bytes := Encode(x / 256, width - 1) + [x % 256];
      assert bytes[..width - 1] == Encode(x / 256, width - 1);
      bytes
  }

  /** Reading back any byte string and re-encoding it at its own width gives it back. */
  lemma {:induction false} EncodeDecode(bytes: seq<byte>)
    ensures Encode(Decode(bytes), |bytes|) == bytes
  {
    if |bytes| > 0 {
      var prefix := bytes[..|bytes| - 1];
      var last := bytes[|bytes| - 1];
      var x := Decode(bytes);
      assert x == Decode(prefix) * 256 + last;
      Arith.Stride(last, Decode(prefix), 256);
      EncodeDecode(prefix);
      assert bytes == prefix + [last];
    }
  }
}

=== FILE: capacity.dfy ===
/**
 * Capacity of the cover images: reading steghide's `--info` report for one
 * image, and the two ways `MulCapacity` aggregates the per-image values,
 * with the 8 header bytes of every part taken off. Arithmetic is on `u64`
 * with the overflow checks of a debug build.
 */
module Capacity {
  import opened Common
  import opened Text
  import opened Arith
  import SplitScrambled

  // ---------------------------------------------------------------------
  // `one_file_capacity`: the report line

  /** The word that marks the capacity line of the report. */
  const CAPACITY_WORD: string := "capacity"

  /** The factor for a unit word of the report; unknown units count as bytes. */
  function UnitMultiplier(unit: string): (m: nat)
    ensures m in {1, 1000, 1000000, 1000000000}
    ensures unit != "KB" && unit != "MB" && unit != "GB" ==> m == 1
  {
    match unit
    case "Byte" => 1
    case "KB" => 1000
    case "MB" => 1000000
    case "GB" => 1000000000
    case _ => 1
  }

  /** Each unit is a thousand of the one below it. */
  lemma UnitLadder()
    ensures UnitMultiplier("KB") == 1000 * UnitMultiplier("Byte")
    ensures UnitMultiplier("MB") == 1000 * UnitMultiplier("KB")
    ensures UnitMultiplier("GB") == 1000 * UnitMultiplier("MB")
  {
  }

  /** The number as written in the report, its unit word, and the unit's factor. */
  datatype Reading = Reading(value: string, unit: string, multiplier: nat)

  /** The second `:`-field of the capacity line, trimmed and cut at whitespace. */
  function ParseCapacityLine(line: string): (r: Result<Reading, Panic>)
    ensures r == Failure(NoCapacityField) <==> ':' !in line
    ensures r == Failure(NoValueToken) <==> ':' in line && |Tokens(Trim(SecondField(line).value))| == 0
    ensures r == Failure(NoUnitToken) <==> ':' in line && |Tokens(Trim(SecondField(line).value))| == 1
    ensures r.Success? <==> ':' in line && |Tokens(Trim(SecondField(line).value))| >= 2
    ensures r.Success? ==> (var tokens := Tokens(Trim(SecondField(line).value));
      r.value == Reading(tokens[0], tokens[1], UnitMultiplier(tokens[1])))
  {
    match SecondField(line)
    case None => Failure(NoCapacityField)
    case Some(field) =>
      var tokens := Tokens(Trim(field));
      if |tokens| == 0 then Failure(NoValueToken)
      else if |tokens| == 1 then Failure(NoUnitToken)
      else Success(Reading(tokens[0], tokens[1], UnitMultiplier(tokens[1])))
  }

  /** The reading of the first report line that mentions the capacity. */
  function ParseCapacityReport(report: string): (r: Result<Reading, Panic>)
    ensures r == Failure(NoCapacityLine) <==>
      forall k :: 0 <= k < |Lines(report)| ==> !Contains(Lines(report)[k], CAPACITY_WORD)
    ensures r != Failure(NoCapacityLine) ==> exists k :: (0 <= k < |Lines(report)| &&
      Contains(Lines(report)[k], CAPACITY_WORD) &&
      (forall k' :: 0 <= k' < k ==> !Contains(Lines(report)[k'], CAPACITY_WORD)) &&
      r == ParseCapacityLine(Lines(report)[k]))
  {
    var lines := Lines(report);
    match FindFirst(lines, CAPACITY_WORD)
    case None => Failure(NoCapacityLine)
    case Some(k) => ParseCapacityLine(lines[k])
  }

  /** A report line of the form `<name>: <value> <unit>`. */
  function CapacityLine(name: string, value: string, unit: string): string
  {
    name + ":" + CapacityField(value, unit)
  }

  /** The text after the colon of a capacity line: ` <value> <unit>`. */
  function CapacityField(value: string, unit: string): string
  {
    " " + (value + " " + unit)
  }

  /** A token of the report that holds no colon. */
  predicate ReportWord(s: string)
  {
    IsWord(s) && ':' !in s
  }

  lemma ContainsExtend(s: string, t: string, pattern: string)
    requires Contains(s, pattern)
    ensures Contains(s + t, pattern)
  {
    var i :| 0 <= i <= |s| && OccursAt(s, pattern, i);
    assert (s + t)[i..i + |pattern|] == s[i..i + |pattern|];
    assert OccursAt(s + t, pattern, i);
  }

  /** The field of a capacity line holds neither colons nor line feeds, and does not end in whitespace. */
  lemma CapacityFieldPlain(value: string, unit: string)
    requires ReportWord(value) && ReportWord(unit)
    ensures ':' !in CapacityField(value, unit) && '\n' !in CapacityField(value, unit)
    ensures !IsWhitespace(CapacityField(value, unit)[|CapacityField(value, unit)| - 1])
  {
    var field := CapacityField(value, unit);
    assert forall i :: 0 <= i < |field| ==> (field[i] ==
      if i == 0 || i == |value| + 1 then ' ' else if i <= |value| then value[i - 1] else unit[i - |value| - 2]);
  }

  /** Trimming the field of a capacity line leaves `<value> <unit>`. */
  lemma TrimCapacityField(value: string, unit: string)
    requires ReportWord(value) && ReportWord(unit)
    ensures Trim(CapacityField(value, unit)) == value + " " + unit
  {
    var body := value + " " + unit;
    var field := CapacityField(value, unit);
    assert field[1..] == body;
    assert IsWhitespace(field[0]);
    assert TrimStart(field) == TrimStart(body);
    assert body[0] == value[0] && body[|body| - 1] == unit[|unit| - 1];
    TrimUntouched(body);
    assert Trim(body) == TrimEnd(TrimStart(body));
  }

  /** A well-formed capacity line reads back as its value and unit. */
  lemma ParseCapacityLineOf(name: string, value: string, unit: string)
    requires ':' !in name && ReportWord(value) && ReportWord(unit)
    ensures ParseCapacityLine(CapacityLine(name, value, unit)) ==
      Success(Reading(value, unit, UnitMultiplier(unit)))
  {
    var field := CapacityField(value, unit);
    var body := value + " " + unit;
    CapacityFieldPlain(value, unit);
    SecondFieldOf(name, field, "");
    assert SecondField(CapacityLine(name, value, unit)) == Some(field);
    TrimCapacityField(value, unit);
    TokensPair(value, unit);
    assert Tokens(Trim(field)) == [value, unit];
  }

  /** A capacity line survives `lines` unchanged and mentions the capacity. */
  lemma CapacityLinePlain(name: string, value: string, unit: string)
    requires '\n' !in name && Contains(name, CAPACITY_WORD)
    requires ReportWord(value) && ReportWord(unit)
    ensures IsPlainLine(CapacityLine(name, value, unit))
    ensures Contains(CapacityLine(name, value, unit), CAPACITY_WORD)
  {
    var field := CapacityField(value, unit);
    var line := CapacityLine(name, value, unit);
    CapacityFieldPlain(value, unit);
    assert line == name + (":" + field);
    ContainsExtend(name, ":" + field, CAPACITY_WORD);
    assert forall i :: 0 <= i < |line| ==>
      line[i] == (if i < |name| then name[i] else if i == |name| then ':' else field[i - |name| - 1]);
    assert line[|line| - 1] == field[|field| - 1];
  }

  /** The first line mentioning the capacity in `before + [line] + after` is `line`. */
  lemma FindCapacityLine(before: seq<string>, line: string, after: seq<string>)
    requires forall k :: 0 <= k < |before| ==> !Contains(before[k], CAPACITY_WORD)
    requires Contains(line, CAPACITY_WORD)
    ensures FindFirst(before + [line] + after, CAPACITY_WORD) == Some(|before|)
  {
    var lines := before + [line] + after;
    assert lines[|before|] == line;
    assert forall k :: 0 <= k < |before| ==> lines[k] == before[k];
  }

  /**
   * A report is read from its first line mentioning the capacity: lines
   * before it are skipped, lines after it are ignored.
   */
  lemma ParseCapacityReportOf(before: seq<string>, name: string, value: string, unit: string, after: seq<string>)
    requires forall k :: 0 <= k < |before| ==> IsPlainLine(before[k]) && !Contains(before[k], CAPACITY_WORD)
    requires forall k :: 0 <= k < |after| ==> IsPlainLine(after[k])
    requires ':' !in name && '\n' !in name && Contains(name, CAPACITY_WORD)
    requires ReportWord(value) && ReportWord(unit)
    ensures ParseCapacityReport(JoinLines(before + [CapacityLine(name, value, unit)] + after)) ==
      Success(Reading(value, unit, UnitMultiplier(unit)))
  {
    var line := CapacityLine(name, value, unit);
    var lines := before + [line] + after;
    CapacityLinePlain(name, value, unit);
    forall k | 0 <= k < |lines| ensures IsPlainLine(lines[k]) {
      if k < |before| {
        assert lines[k] == before[k];
      } else if k > |before| {
        assert lines[k] == after[k - |before| - 1];
      }
    }
    LinesJoinLines(lines);
    FindCapacityLine(before, line, after);
    ParseCapacityLineOf(name, value, unit);
  }

  // ---------------------------------------------------------------------
  // `MulFullCapacity` and `MulScrambledCapacity`

  /**
   * The capacities `one_file_capacity` returns for the images in loop
   * order, up to the first read that panics: `outcomes[i]` is the outcome of
   * reading image i.
   */
  function Readings(outcomes: seq<Result<u64, Panic>>): (raw: seq<u64>)
    ensures |raw| <= |outcomes|
    ensures forall i :: 0 <= i < |raw| ==> outcomes[i] == Success(raw[i])
    ensures |raw| < |outcomes| ==> outcomes[|raw|].Failure?
  {
    if |outcomes| == 0 then []
    else
      match outcomes[0]
      case Failure(_) => []
      case Success(v) => [v] + Readings(outcomes[1..])
  }

  /** At a pass the loops reach, a read either panics, so all reads so far are `Readings`, or yields the next reading. */
  lemma ReadingAt(outcomes: seq<Result<u64, Panic>>, i: nat)
    requires i <= |Readings(outcomes)| && i < |outcomes|
    ensures outcomes[i].Failure? ==> i == |Readings(outcomes)| && Readings(outcomes)[..i] == Readings(outcomes)
    ensures outcomes[i].Success? ==> i < |Readings(outcomes)| && Readings(outcomes)[i] == outcomes[i].value
  {
    var raw := Readings(outcomes);
    if i < |raw| {
      assert outcomes[i] == Success(raw[i]);
    } else {
      assert raw[..i] == raw;
    }
  }

  /** Every image has room at least for the 8-byte header. */
  predicate HoldsHeaders(raw: seq<u64>)
  {
    forall i :: 0 <= i < |raw| ==> raw[i] >= 8
  }

  /** The summed room left after each image's header, as an unbounded integer. */
  function Headroom(raw: seq<u64>): int
  {
    if |raw| == 0 then 0 else Headroom(raw[..|raw| - 1]) + raw[|raw| - 1] as int - 8
  }

  /** The smallest room left after a header, starting from `u64::MAX`. */
  function SmallestHeadroom(raw: seq<u64>): (m: int)
    ensures m <= U64_LIMIT - 1
    ensures forall i :: 0 <= i < |raw| ==> m <= raw[i] as int - 8
    ensures m == U64_LIMIT - 1 || exists i :: 0 <= i < |raw| && m == raw[i] as int - 8
  {
    if |raw| == 0 then U64_LIMIT - 1
    else
      var m := SmallestHeadroom(raw[..|raw| - 1]);
      assert forall i :: 0 <= i < |raw| - 1 ==> raw[..|raw| - 1][i] == raw[i];
      if raw[|raw| - 1] as int - 8 < m then raw[|raw| - 1] as int - 8 else m
  }

  /** Where the loop of `MulFullCapacity` panics: the first image it cannot get past. */
  predicate FullFaultAt(raw: seq<u64>, i: nat)
  {
    i < |raw| && HoldsHeaders(raw[..i]) && Headroom(raw[..i]) < U64_LIMIT &&
    (raw[i] < 8 || Headroom(raw[..i + 1]) >= U64_LIMIT)
  }

  /** Extending a prefix by one image: every header so far still fits. */
  lemma HoldsHeadersStep(raw: seq<u64>, i: nat)
    requires i < |raw| && HoldsHeaders(raw[..i]) && raw[i] >= 8
    ensures HoldsHeaders(raw[..i + 1])
  {
    assert forall k :: 0 <= k < i ==> raw[..i + 1][k] == raw[..i][k];
  }

  /** Extending a prefix by one image: the sum takes in its room after the header. */
  lemma HeadroomPrefixStep(raw: seq<u64>, i: nat)
    requires i < |raw| && HoldsHeaders(raw[..i]) && raw[i] >= 8
    ensures HoldsHeaders(raw[..i + 1])
    ensures Headroom(raw[..i + 1]) == Headroom(raw[..i]) + raw[i] as int - 8
  {
    assert raw[..i + 1][..i] == raw[..i];
    HoldsHeadersStep(raw, i);
  }

  /** Extending a prefix by one image: the minimum takes in its room after the header. */
  lemma SmallestPrefixStep(raw: seq<u64>, i: nat)
    requires i < |raw| && HoldsHeaders(raw[..i]) && raw[i] >= 8
    ensures HoldsHeaders(raw[..i + 1])
    ensures SmallestHeadroom(raw[..i + 1]) ==
      if raw[i] as int - 8 < SmallestHeadroom(raw[..i]) then raw[i] as int - 8 else SmallestHeadroom(raw[..i])
  {
    assert raw[..i + 1][..i] == raw[..i];
    HoldsHeadersStep(raw, i);
  }

  lemma {:induction false} HeadroomPrefix(raw: seq<u64>, i: nat)
    requires i <= |raw| && HoldsHeaders(raw)
    ensures Headroom(raw[..i]) <= Headroom(raw)
    decreases |raw|
  {
    if i < |raw| {
      var m := |raw| - 1;
      assert raw[..m][..i] == raw[..i];
      assert HoldsHeaders(raw[..m]) by {
        assert forall k :: 0 <= k < m ==> raw[..m][k] == raw[k];
      }
      HeadroomPrefix(raw[..m], i);
    } else {
      assert raw[..i] == raw;
    }
  }

  /** The sum of `capacity - 8` over `raw` stays within `u64`. */
  predicate FullFits(raw: seq<u64>)
  {
    HoldsHeaders(raw) && Headroom(raw) < U64_LIMIT
  }

  /** A loop that got past every reading without a fault has summed them all within `u64`. */
  lemma FullFitsAll(raw: seq<u64>, i: nat)
    requires i == |raw| && HoldsHeaders(raw[..i]) && Headroom(raw[..i]) < U64_LIMIT
    ensures FullFits(raw) && Headroom(raw) == Headroom(raw[..i])
  {
    assert raw[..i] == raw;
  }

  /** A loop that got past every reading has seen every header fit. */
  lemma HoldsHeadersAll(raw: seq<u64>, i: nat)
    requires i == |raw| && HoldsHeaders(raw[..i])
    ensures HoldsHeaders(raw) && SmallestHeadroom(raw) == SmallestHeadroom(raw[..i])
  {
    assert raw[..i] == raw;
  }

  /** An image the loop cannot get past means the whole sum does not fit. */
  lemma FullFaultNotFits(raw: seq<u64>, i: nat)
    requires FullFaultAt(raw, i)
    ensures !FullFits(raw)
  {
    if raw[i] >= 8 && HoldsHeaders(raw) {
      HeadroomPrefix(raw, i + 1);
    }
  }

  /**
   * `MulFullCapacity::capacity`: each pass reads one image's capacity and
   * adds `capacity - 8` to the total. It returns the sum when every read
   * succeeds and the arithmetic stays within `u64`. Otherwise it panics at
   * the first pass that cannot complete: a read that panics, a capacity
   * below 8, or a total that leaves `u64`.
   */
  method FullCapacity(outcomes: seq<Result<u64, Panic>>) returns (r: Result<u64, Panic>)
    ensures r.Success? <==> |Readings(outcomes)| == |outcomes| && FullFits(Readings(outcomes))
    ensures r.Success? ==> r.value == Headroom(Readings(outcomes))
    ensures r.Failure? && FullFits(Readings(outcomes)) ==>
      |Readings(outcomes)| < |outcomes| && r.error == outcomes[|Readings(outcomes)|].error
    ensures r.Failure? && !FullFits(Readings(outcomes)) ==> exists i: nat :: (FullFaultAt(Readings(outcomes), i) &&
      r.error == (if Readings(outcomes)[i] < 8 then SubtractOverflow else AddOverflow))
  {
    var total: u64 := 0;
    var i := 0;
    while i < |outcomes|
      invariant 0 <= i <= |Readings(outcomes)|
      invariant HoldsHeaders(Readings(outcomes)[..i])
      invariant total == Headroom(Readings(outcomes)[..i])
    {
      if outcomes[i].Failure? || outcomes[i].value < 8 || total + outcomes[i].value - 8 >= U64_LIMIT {
        r := FullCapacityExit(outcomes, i, total);
        return;
      }
      total := FullCapacityStep(outcomes, i, total);
      i := i + 1;
    }
    r := FullCapacityExit(outcomes, i, total);
  }

  /** One pass of the loop of `MulFullCapacity::capacity` that neither panics nor stops. */
  method FullCapacityStep(outcomes: seq<Result<u64, Panic>>, i: nat, total: u64) returns (next: u64)
    requires i <= |Readings(outcomes)| && i < |outcomes| && outcomes[i].Success? && outcomes[i].value >= 8
    requires HoldsHeaders(Readings(outcomes)[..i]) && total == Headroom(Readings(outcomes)[..i])
    requires total + outcomes[i].value - 8 < U64_LIMIT
    ensures i < |Readings(outcomes)|
    ensures HoldsHeaders(Readings(outcomes)[..i + 1]) && next == Headroom(Readings(outcomes)[..i + 1])
  {
    var raw := Readings(outcomes);
    ReadingAt(outcomes, i);
    HeadroomPrefixStep(raw, i);
    next := total + outcomes[i].value - 8;
  }

  /**
   * Where the loop of `MulFullCapacity::capacity` ends: after the last
   * image, at a read that panics, at a capacity below 8, or at a total that
   * leaves `u64`.
   */
  method FullCapacityExit(outcomes: seq<Result<u64, Panic>>, i: nat, total: u64) returns (r: Result<u64, Panic>)
    requires i <= |Readings(outcomes)|
    requires HoldsHeaders(Readings(outcomes)[..i]) && total == Headroom(Readings(outcomes)[..i])
    requires i == |outcomes| || outcomes[i].Failure? || outcomes[i].value < 8 || total + outcomes[i].value - 8 >= U64_LIMIT
    ensures r.Success? <==> |Readings(outcomes)| == |outcomes| && FullFits(Readings(outcomes))
    ensures r.Success? ==> r.value == Headroom(Readings(outcomes))
    ensures r.Failure? && FullFits(Readings(outcomes)) ==>
      |Readings(outcomes)| < |outcomes| && r.error == outcomes[|Readings(outcomes)|].error
    ensures r.Failure? && !FullFits(Readings(outcomes)) ==> exists i: nat :: (FullFaultAt(Readings(outcomes), i) &&
      r.error == (if Readings(outcomes)[i] < 8 then SubtractOverflow else AddOverflow))
  {
    var raw := Readings(outcomes);
    if i == |outcomes| {
      FullFitsAll(raw, i);
      r := Success(total);
      return;
    }
    ReadingAt(outcomes, i);
    if outcomes[i].Failure? {
      FullFitsAll(raw, i);
      r := Failure(outcomes[i].error);
    } else {
      assert raw[..i + 1][..i] == raw[..i];
      assert FullFaultAt(raw, i);
      FullFaultNotFits(raw, i);
      r := Failure(if outcomes[i].value < 8 then SubtractOverflow else AddOverflow);
    }
  }

  /**
   * The loop of `MulScrambledCapacity::capacity`: each pass reads one
   * image's capacity and keeps the smallest `capacity - 8`, starting from
   * `u64::MAX`. It panics at the first read that panics or the first
   * subtraction that leaves `u64`, whichever pass comes first.
   */
  method SmallestHeadroomLoop(outcomes: seq<Result<u64, Panic>>) returns (r: Result<u64, Panic>)
    ensures r.Success? <==> |Readings(outcomes)| == |outcomes| && HoldsHeaders(Readings(outcomes))
    ensures r.Success? ==> r.value == SmallestHeadroom(Readings(outcomes))
    ensures r.Failure? ==> (r.error ==
      if HoldsHeaders(Readings(outcomes)) then outcomes[|Readings(outcomes)|].error else SubtractOverflow)
  {
    var raw := Readings(outcomes);
    var smallest: u64 := U64_LIMIT - 1;
    var i := 0;
    while i < |outcomes|
      invariant 0 <= i <= |raw|
      invariant HoldsHeaders(raw[..i])
      invariant smallest == SmallestHeadroom(raw[..i])
    {
      if outcomes[i].Failure? || outcomes[i].value < 8 {
        r := SmallestHeadroomExit(outcomes, i, smallest);
        return;
      }
      smallest := SmallestHeadroomStep(outcomes, i, smallest);
      i := i + 1;
    }
    r := SmallestHeadroomExit(outcomes, i, smallest);
  }

  /** One pass of the loop of `MulScrambledCapacity::capacity` that neither panics nor stops. */
  method SmallestHeadroomStep(outcomes: seq<Result<u64, Panic>>, i: nat, smallest: u64) returns (next: u64)
    requires i <= |Readings(outcomes)| && i < |outcomes| && outcomes[i].Success? && outcomes[i].value >= 8
    requires HoldsHeaders(Readings(outcomes)[..i]) && smallest == SmallestHeadroom(Readings(outcomes)[..i])
    ensures i < |Readings(outcomes)|
    ensures HoldsHeaders(Readings(outcomes)[..i + 1]) && next == SmallestHeadroom(Readings(outcomes)[..i + 1])
  {
    var raw := Readings(outcomes);
    ReadingAt(outcomes, i);
    var headroom := outcomes[i].value - 8;
    SmallestPrefixStep(raw, i);
    next := if headroom < smallest then headroom else smallest;
  }

  /**
   * Where the loop of `MulScrambledCapacity::capacity` ends: after the last
   * image, at a read that panics, or at a capacity below 8.
   */
  method SmallestHeadroomExit(outcomes: seq<Result<u64, Panic>>, i: nat, smallest: u64) returns (r: Result<u64, Panic>)
    requires i <= |Readings(outcomes)|
    requires HoldsHeaders(Readings(outcomes)[..i]) && smallest == SmallestHeadroom(Readings(outcomes)[..i])
    requires i == |outcomes| || outcomes[i].Failure? || outcomes[i].value < 8
    ensures r.Success? <==> |Readings(outcomes)| == |outcomes| && HoldsHeaders(Readings(outcomes))
    ensures r.Success? ==> r.value == SmallestHeadroom(Readings(outcomes))
    ensures r.Failure? ==> (r.error ==
      if HoldsHeaders(Readings(outcomes)) then outcomes[|Readings(outcomes)|].error else SubtractOverflow)
  {
    var raw := Readings(outcomes);
    if i == |outcomes| {
      HoldsHeadersAll(raw, i);
      r := Success(smallest);
    } else {
      ReadingAt(outcomes, i);
      if outcomes[i].Failure? {
        HoldsHeadersAll(raw, i);
        r := Failure(outcomes[i].error);
      } else {
        assert raw[i] < 8;
        assert !HoldsHeaders(raw);
        r := Failure(SubtractOverflow);
      }
    }
  }

  /**
   * `MulScrambledCapacity::capacity`: the smallest `capacity - 8` (starting
   * from `u64::MAX`) times the number of images. It panics as its loop
   * does, or when the product leaves `u64`.
   */
  method ScrambledCapacity(outcomes: seq<Result<u64, Panic>>) returns (r: Result<u64, Panic>)
    ensures r.Success? <==> (|Readings(outcomes)| == |outcomes| && HoldsHeaders(Readings(outcomes)) &&
      SmallestHeadroom(Readings(outcomes)) * |outcomes| < U64_LIMIT)
    ensures r.Success? ==> r.value == SmallestHeadroom(Readings(outcomes)) * |outcomes|
    ensures r.Failure? ==> (r.error ==
      if !HoldsHeaders(Readings(outcomes)) then SubtractOverflow
      else if |Readings(outcomes)| < |outcomes| then outcomes[|Readings(outcomes)|].error
      else MultiplyOverflow)
  {
    var smallest := SmallestHeadroomLoop(outcomes);
    if smallest.Failure? {
      return smallest;
    }
    assert |Readings(outcomes)| == |outcomes| && HoldsHeaders(Readings(outcomes));
    var product := smallest.value * |outcomes|;
    MulMono(0, smallest.value, |outcomes|);
    if product >= U64_LIMIT {
      return Failure(MultiplyOverflow);
    }
    r := Success(product);
  }

  lemma {:induction false} LowerBoundTimesCount(raw: seq<u64>, low: int)
    requires forall i :: 0 <= i < |raw| ==> low <= raw[i] as int - 8
    ensures low * |raw| <= Headroom(raw)
  {
    if |raw| > 0 {
      var m := |raw| - 1;
      assert forall i :: 0 <= i < m ==> raw[..m][i] == raw[i];
      LowerBoundTimesCount(raw[..m], low);
      assert low * |raw| == low * m + low;
    }
  }

  /**
   * The scrambled capacity never exceeds the full capacity, so whenever the
   * full computation stays within `u64` the scrambled one does too.
   */
  lemma ScrambledAtMostFull(raw: seq<u64>)
    requires HoldsHeaders(raw)
    ensures SmallestHeadroom(raw) * |raw| <= Headroom(raw)
  {
    LowerBoundTimesCount(raw, SmallestHeadroom(raw));
  }

  /**
   * The promise behind `MulScrambledCapacity`: a payload no larger than the
   * scrambled capacity splits into buckets that each fit, with their 8-byte
   * header, into their image's raw capacity.
   */
  lemma ScrambledPayloadFits(data: seq<byte>, raw: seq<u64>)
    requires HoldsHeaders(raw) && |raw| > 0
    requires |data| <= SmallestHeadroom(raw) * |raw|
    ensures SplitScrambled.Split(data, raw).Success?
    ensures forall i :: 0 <= i < |raw| ==> |SplitScrambled.Split(data, raw).value[i]| + 8 <= raw[i]
  {
    var n := |raw|;
    var m := SmallestHeadroom(raw);
    var buckets := SplitScrambled.Split(data, raw).value;
    forall i | 0 <= i < n ensures |buckets[i]| + 8 <= raw[i] {
      SplitScrambled.BucketLenIff(|data|, n, i, m);
      OffsetValue(i, m, n);
    }
  }

  /** With no images both capacities are zero. */
  method NoImages() returns (full: Result<u64, Panic>, scrambled: Result<u64, Panic>)
    ensures full == Success(0) && scrambled == Success(0)
  {
    full := FullCapacity([]);
    scrambled := ScrambledCapacity([]);
  }
}

=== FILE: common.dfy ===
/**
 * Shared vocabulary of the model: bytes and 64-bit unsigned values as
 * bounded integers, the Result type that stands for a Rust panic, and the
 * total length of a list of byte pieces.
 */
module Common {

  /** A `u8`. */
  type byte = x: int | 0 <= x < 256

  /** 2^64, one past the largest `u64` (and, on 64-bit targets, `usize`). */
  const U64_LIMIT: int := 0x1_0000_0000_0000_0000

  /** A `u64`. */
  type u64 = x: int | 0 <= x < 0x1_0000_0000_0000_0000

  /** The points at which the modelled Rust code panics. */
  datatype Panic =
    | BucketIndexOutOfBounds   // split: `scrambled_content[0]` on an empty bucket list
    | JoinIndexOutOfBounds     // join: a write past the end of `unified_piece`
    | HeaderTooShort           // extract: `piece[0..8]` on a piece shorter than 8 bytes
    | SlotIndexOutOfBounds     // extract: `sorted_pieces[index]` with index >= count
    | NoCapacityLine           // capacity: no report line contains "capacity"
    | NoCapacityField          // capacity: the line has no ':'
    | NoValueToken             // capacity: the field holds no token
    | NoUnitToken              // capacity: the field holds only one token
    | SubtractOverflow         // capacity: `capacity - 8` below zero
    | AddOverflow              // capacity: running total exceeds u64
    | MultiplyOverflow         // capacity: `smallest * len` exceeds u64

  /** Either the value an operation returns or the panic that ends it. */
  datatype Result<T, E> = Success(value: T) | Failure(error: E)

  datatype Option<T> = None | Some(value: T)

  /** Sum of the lengths of `pieces`. */
  function TotalLen<T>(pieces: seq<seq<T>>): nat
  {
    if |pieces| == 0 then 0
    else TotalLen(pieces[..|pieces| - 1]) + |pieces[|pieces| - 1]|
  }

  lemma {:induction false} TotalLenAppend<T>(pieces: seq<seq<T>>, piece: seq<T>)
    ensures TotalLen(pieces + [piece]) == TotalLen(pieces) + |piece|
  {
    assert (pieces + [piece])[..|pieces|] == pieces;
  }

  lemma {:induction false} TotalLenConcat<T>(a: seq<seq<T>>, b: seq<seq<T>>)
    ensures TotalLen(a + b) == TotalLen(a) + TotalLen(b)
    decreases |b|
  {
    if |b| == 0 {
      assert a + b == a;
    } else {
      var b' := b[..|b| - 1];
      assert a + b == (a + b') + [b[|b| - 1]];
      assert b == b' + [b[|b| - 1]];
      TotalLenAppend(a + b', b[|b| - 1]);
      TotalLenAppend(b', b[|b| - 1]);
      TotalLenConcat(a, b');
    }
  }

  /** Appending to one piece adds exactly that many bytes to the total. */
  lemma {:induction false} TotalLenUpdate<T>(pieces: seq<seq<T>>, i: nat, extra: seq<T>)
    requires i < |pieces|
    ensures TotalLen(pieces[i := pieces[i] + extra]) == TotalLen(pieces) + |extra|
  {
    var updated := pieces[i := pieces[i] + extra];
    assert pieces == pieces[..i] + [pieces[i]] + pieces[i + 1..];
    assert updated == pieces[..i] + [pieces[i] + extra] + pieces[i + 1..];
    TotalLenConcat(pieces[..i] + [pieces[i]], pieces[i + 1..]);
    TotalLenConcat(pieces[..i] + [pieces[i] + extra], pieces[i + 1..]);
    TotalLenAppend(pieces[..i], pieces[i]);
    TotalLenAppend(pieces[..i], pieces[i] + extra);
  }

  /** The total length does not depend on the order of the pieces. */
  lemma {:induction false} TotalLenPermutation<T>(a: seq<seq<T>>, b: seq<seq<T>>)
    requires multiset(a) == multiset(b)
    ensures TotalLen(a) == TotalLen(b)
    decreases |a|
  {
    if |a| == 0 {
      assert |b| == |multiset(b)| == 0;
    } else {
      var x := a[|a| - 1];
      var a' := a[..|a| - 1];
      assert a == a' + [x];
      assert x in multiset(b);
      var i :| 0 <= i < |b| && b[i] == x;
      var b' := b[..i] + b[i + 1..];
      assert b == b[..i] + [x] + b[i + 1..];
      assert multiset(b') == multiset(b) - multiset{x};
      assert multiset(a') == multiset(a) - multiset{x};
      TotalLenPermutation(a', b');
      TotalLenAppend(a', x);
      TotalLenConcat(b[..i] + [x], b[i + 1..]);
      TotalLenAppend(b[..i], x);
      TotalLenConcat(b[..i], b[i + 1..]);
    }
  }
}

/** Facts about Euclidean division and strided offsets that the verifier does not find alone. */
module Arith {

  lemma MulMono(a: int, b: int, n: nat)
    requires a <= b
    ensures a * n <= b * n
  {
    assert b * n - a * n == (b - a) * n;
  }

  /** Division and remainder of a value written as `i + j * n` with `i < n`. */
  lemma Stride(i: int, j: int, n: int)
    requires 0 <= i < n
    ensures (i + j * n) % n == i
    ensures (i + j * n) / n == j
  {
    var x := i + j * n;
    var q := x / n;
    var r := x % n;
    assert x == q * n + r;
    assert (q - j) * n == i - r;
    if q - j >= 1 {
      MulMono(1, q - j, n);
    } else if q - j <= -1 {
      MulMono(q - j, -1, n);
    }
  }

  /** Every value is its remainder plus a multiple of `n`. */
  lemma Decompose(k: int, n: int)
    requires n > 0
    ensures k == k % n + (k / n) * n
    ensures 0 <= k % n < n
  {
  }

  /** `m <= a / n` exactly when `m * n <= a`. */
  lemma DivBound(m: int, a: int, n: int)
    requires n > 0
    ensures m <= a / n <==> m * n <= a
  {
    var q := a / n;
    Decompose(a, n);
    if m <= q {
      MulMono(m, q, n);
    } else {
      MulMono(q + 1, m, n);
    }
  }

  /**
   * The offset `i + j * n` of position `j` in stride `i`. Written as repeated
   * addition so that proofs about many offsets stay linear.
   */
  function Offset(i: nat, j: nat, n: nat): nat
  {
    if j == 0 then i else Offset(i, j - 1, n) + n
  }

  lemma {:induction false} OffsetValue(i: nat, j: nat, n: nat)
    ensures Offset(i, j, n) == i + j * n
  {
    if j > 0 {
      OffsetValue(i, j - 1, n);
    }
  }

  /** Within one stride, offsets grow strictly with the position. */
  lemma OffsetLess(i: nat, j: nat, j': nat, n: nat)
    requires n > 0
    ensures j < j' <==> Offset(i, j, n) < Offset(i, j', n)
  {
    OffsetValue(i, j, n);
    OffsetValue(i, j', n);
    if j < j' {
      MulMono(j + 1, j', n);
    } else {
      MulMono(j', j, n);
    }
  }

  /** For strides `i <= i' < n`, position j of i' lies between positions j and j + 1 of i. */
  lemma OffsetBetween(i: nat, i': nat, j: nat, n: nat)
    requires i <= i' < n
    ensures Offset(i, j, n) <= Offset(i', j, n) < Offset(i, j + 1, n)
  {
    OffsetValue(i, j, n);
    OffsetValue(i', j, n);
  }

  /** Stride and position are recovered from an offset by remainder and quotient. */
  lemma OffsetDivMod(i: nat, j: nat, n: nat)
    requires i < n
    ensures Offset(i, j, n) % n == i && Offset(i, j, n) / n == j
  {
    OffsetValue(i, j, n);
    Stride(i, j, n);
  }

  /** Euclidean remainder of a natural number, as a natural number below `n`. */
  function Mod(k: nat, n: nat): (i: nat)
    requires n > 0
    ensures i < n && i == k % n
  {
    k % n
  }

  /** Euclidean quotient of a natural number, as a natural number. */
  function Div(k: nat, n: nat): (q: nat)
    requires n > 0
    ensures q == k / n
  {
    DivBound(0, k, n);
    k / n
  }

  /** Every offset lies in some stride below `n`. */
  lemma OffsetOf(k: nat, n: nat) returns (i: nat, j: nat)
    requires n > 0
    ensures i < n && Offset(i, j, n) == k
  {
    i, j := k % n, k / n;
    OffsetDecompose(k, n);
  }

  /** Every offset `k` is position `k / n` of stride `k % n`. */
  lemma OffsetDecompose(k: nat, n: nat)
    requires n > 0
    ensures Offset(k % n, k / n, n) == k
  {
    OffsetValue(k % n, k / n, n);
    Decompose(k, n);
  }
}

=== FILE: embed.dfy ===
/**
 * The data flow of `mul_embed`: read one capacity per image, split the
 * payload into one bucket per image, frame bucket i with header index i,
 * and hand part i to image i. The steghide call that stores a part inside
 * its image is the delivery of that part; the worker pool that performs
 * the deliveries only changes their timing, so the model returns them as
 * a sequence in image order.
 */
module Embed {
  import opened Common
  import opened Framing
  import SplitScrambled

  /**
   * The capacity loop: `one_file_capacity` is called on each image in
   * turn and its value pushed. A read that panics ends the loop, so the
   * capacities of the images before it are all that was gathered.
   */
  function ReadCapacities(images: seq<string>, capacityOf: string -> Result<u64, Panic>): (r: Result<seq<u64>, Panic>)
    ensures r.Success? <==> forall i :: 0 <= i < |images| ==> capacityOf(images[i]).Success?
    ensures r.Success? ==> |r.value| == |images|
    ensures r.Success? ==> forall i :: 0 <= i < |images| ==> r.value[i] == capacityOf(images[i]).value
  {
    if |images| == 0 then
      Success([])
    else
      var m := |images| - 1;
      var prefix := images[..m];
      assert forall i :: 0 <= i < m ==> prefix[i] == images[i];
      match ReadCapacities(prefix, capacityOf)
      case Failure(e) => Failure(e)
      case Success(capacities) =>
        match capacityOf(images[m])
        case Failure(e) => Failure(e)
        case Success(c) => Success(capacities + [c])
  }

  /** The capacity loop panics with the panic of the first image whose capacity cannot be read. */
  lemma {:induction false} ReadCapacitiesFault(images: seq<string>, capacityOf: string -> Result<u64, Panic>)
    requires ReadCapacities(images, capacityOf).Failure?
    ensures exists i :: (0 <= i < |images| && capacityOf(images[i]).Failure? &&
      ReadCapacities(images, capacityOf).error == capacityOf(images[i]).error &&
      forall i' :: 0 <= i' < i ==> capacityOf(images[i']).Success?)
  {
    var m := |images| - 1;
    var prefix := images[..m];
    assert forall i :: 0 <= i < m ==> prefix[i] == images[i];
    if ReadCapacities(prefix, capacityOf).Failure? {
      ReadCapacitiesFault(prefix, capacityOf);
      var i :| 0 <= i < m && capacityOf(prefix[i]).Failure? &&
        ReadCapacities(prefix, capacityOf).error == capacityOf(prefix[i]).error &&
        forall i' :: 0 <= i' < i ==> capacityOf(prefix[i']).Success?;
      assert ReadCapacities(images, capacityOf).error == capacityOf(images[i]).error;
    } else {
      assert ReadCapacities(images, capacityOf).error == capacityOf(images[m]).error;
    }
  }

  /** The framing loop: bucket i prefixed with the big-endian encoding of i. */
  function FramedParts(buckets: seq<seq<byte>>): (parts: seq<seq<byte>>)
    requires |buckets| <= U64_LIMIT
    ensures |parts| == |buckets|
    ensures forall i :: 0 <= i < |buckets| ==>
      |parts[i]| == |buckets[i]| + HEADER_LEN && HeaderIndex(parts[i]) == i && Body(parts[i]) == buckets[i]
  {
    seq(|buckets|, i requires 0 <= i < |buckets| => Frame(i, buckets[i]))
  }

  /** A unit of work for the pool: the part file `file_part_{part}` and the image to hide it in. */
  datatype WorkItem = WorkItem(part: nat, image: string)

  /** The work loop: image i is paired with part i. */
  function WorkItems(images: seq<string>): (items: seq<WorkItem>)
    ensures |items| == |images|
    ensures forall i :: 0 <= i < |images| ==> items[i].image == images[i]
  {
    seq(|images|, i requires 0 <= i < |images| => WorkItem(i, images[i]))
  }

  /** No image path is given twice. */
  predicate Distinct(images: seq<string>)
  {
    forall i, j :: 0 <= i < j < |images| ==> images[i] != images[j]
  }

  /** How many of `items` name part file `p`. */
  function UsesOfPart(items: seq<WorkItem>, p: nat): nat
  {
    if |items| == 0 then 0
    else UsesOfPart(items[..|items| - 1], p) + (if items[|items| - 1].part == p then 1 else 0)
  }

  /** Part file `p` is named by one work item when it exists, and by none otherwise. */
  lemma {:induction false} PartUses(images: seq<string>, p: nat)
    ensures UsesOfPart(WorkItems(images), p) == if p < |images| then 1 else 0
  {
    if |images| > 0 {
      var m := |images| - 1;
      assert WorkItems(images)[..m] == WorkItems(images[..m]);
      PartUses(images[..m], p);
    }
  }

  /** Every part file is sent to the pool exactly once, and no work item names a part that was not written. */
  lemma WorkItemsPairing(images: seq<string>)
    ensures forall p: nat :: UsesOfPart(WorkItems(images), p) == if p < |images| then 1 else 0
  {
    forall p: nat ensures UsesOfPart(WorkItems(images), p) == if p < |images| then 1 else 0 {
      PartUses(images, p);
    }
  }

  /** One steghide embedding: `fragment` is stored inside `image`. */
  datatype Delivery = Delivery(image: string, fragment: seq<byte>)

  /** Carry out the work items against the part files. */
  function Deliver(items: seq<WorkItem>, parts: seq<seq<byte>>): (deliveries: seq<Delivery>)
    requires forall i :: 0 <= i < |items| ==> items[i].part < |parts|
    ensures |deliveries| == |items|
  {
    seq(|items|, i requires 0 <= i < |items| => Delivery(items[i].image, parts[items[i].part]))
  }

  /**
   * With distinct image paths, each image receives exactly one delivery,
   * and the part it receives is the one with its own index.
   */
  lemma DeliverOnePerImage(images: seq<string>, parts: seq<seq<byte>>)
    requires |parts| == |images| && Distinct(images)
    ensures forall i, k :: 0 <= i < |images| && 0 <= k < |images| ==>
      (Deliver(WorkItems(images), parts)[k].image == images[i] <==> k == i)
    ensures forall i :: 0 <= i < |images| ==> Deliver(WorkItems(images), parts)[i].fragment == parts[i]
  {
  }

  /** Every capacity of the images can be read. */
  predicate AllReadable(images: seq<string>, capacityOf: string -> Result<u64, Panic>)
  {
    forall i :: 0 <= i < |images| ==> capacityOf(images[i]).Success?
  }

  /**
   * `mul_embed`: the deliveries it performs, or the panic that ends it.
   * That is the panic of the first image whose capacity cannot be read,
   * or else the panic of `split` when there are no images but some payload.
   */
  function MulEmbed(input: seq<byte>, images: seq<string>, capacityOf: string -> Result<u64, Panic>): (r: Result<seq<Delivery>, Panic>)
    requires |images| <= U64_LIMIT
    ensures r.Failure? <==> !AllReadable(images, capacityOf) || (|images| == 0 && |input| > 0)
    ensures r.Failure? && AllReadable(images, capacityOf) ==> r.error == BucketIndexOutOfBounds
    ensures r.Success? ==> |r.value| == |images|
    ensures r.Success? ==> forall i :: 0 <= i < |images| ==>
      r.value[i].image == images[i] && |r.value[i].fragment| >= HEADER_LEN &&
      HeaderIndex(r.value[i].fragment) == i
  {
    match ReadCapacities(images, capacityOf)
    case Failure(e) => Failure(e)
    case Success(capacities) =>
      match SplitScrambled.Split(input, capacities)
      case Failure(e) => Failure(e)
      case Success(buckets) =>
        var parts := FramedParts(buckets);
        Success(Deliver(WorkItems(images), parts))
  }

  /** When a capacity cannot be read, `mul_embed` panics as the first such read does, before anything is split. */
  lemma MulEmbedCapacityFault(input: seq<byte>, images: seq<string>, capacityOf: string -> Result<u64, Panic>)
    requires |images| <= U64_LIMIT
    requires !AllReadable(images, capacityOf)
    ensures exists i :: (0 <= i < |images| && capacityOf(images[i]).Failure? &&
      MulEmbed(input, images, capacityOf) == Failure(capacityOf(images[i]).error) &&
      forall i' :: 0 <= i' < i ==> capacityOf(images[i']).Success?)
  {
    ReadCapacitiesFault(images, capacityOf);
  }

  /** The fragments written into the images, in image order. */
  function Fragments(deliveries: seq<Delivery>): (fragments: seq<seq<byte>>)
    ensures |fragments| == |deliveries|
    ensures forall i :: 0 <= i < |deliveries| ==> fragments[i] == deliveries[i].fragment
  {
    seq(|deliveries|, i requires 0 <= i < |deliveries| => deliveries[i].fragment)
  }

  /** The fragments delivered by the work items are the parts, in image order. */
  lemma FragmentsDelivered(images: seq<string>, parts: seq<seq<byte>>)
    requires |parts| == |images|
    ensures Fragments(Deliver(WorkItems(images), parts)) == parts
  {
  }

  /** With every capacity read and a possible split, `mul_embed` carries out the work items against the framed buckets. */
  lemma MulEmbedDeliveries(input: seq<byte>, images: seq<string>, capacityOf: string -> Result<u64, Panic>)
    returns (deliveries: seq<Delivery>)
    requires |images| <= U64_LIMIT && AllReadable(images, capacityOf)
    requires |images| > 0 || |input| == 0
    ensures var buckets := SplitScrambled.Split(input, ReadCapacities(images, capacityOf).value).value;
      |buckets| == |images| &&
      deliveries == Deliver(WorkItems(images), FramedParts(buckets)) &&
      MulEmbed(input, images, capacityOf) == Success(deliveries)
  {
    var capacities := ReadCapacities(images, capacityOf).value;
    var buckets := SplitScrambled.Split(input, capacities).value;
    deliveries := Deliver(WorkItems(images), FramedParts(buckets));
  }

  /**
   * The fragment image i receives is bucket i of the split, framed with
   * index i; in particular its header is exactly 8 bytes and it is never
   * shorter than that.
   */
  lemma MulEmbedFragments(input: seq<byte>, images: seq<string>, capacityOf: string -> Result<u64, Panic>)
    requires |images| <= U64_LIMIT && AllReadable(images, capacityOf)
    requires |images| > 0 || |input| == 0
    ensures MulEmbed(input, images, capacityOf).Success?
    ensures var buckets := SplitScrambled.Split(input, ReadCapacities(images, capacityOf).value).value;
      Fragments(MulEmbed(input, images, capacityOf).value) == FramedParts(buckets)
  {
    var capacities := ReadCapacities(images, capacityOf).value;
    var buckets := SplitScrambled.Split(input, capacities).value;
    var deliveries := MulEmbedDeliveries(input, images, capacityOf);
    FragmentsDelivered(images, FramedParts(buckets));
  }

  /** The capacity values read from the images do not influence what is embedded. */
  lemma MulEmbedIgnoresCapacities(input: seq<byte>, images: seq<string>,
                                  c1: string -> Result<u64, Panic>, c2: string -> Result<u64, Panic>)
    requires |images| <= U64_LIMIT
    requires AllReadable(images, c1) && AllReadable(images, c2)
    ensures MulEmbed(input, images, c1) == MulEmbed(input, images, c2)
  {
    SplitScrambled.SplitIgnoresCapacityValues(input, ReadCapacities(images, c1).value, ReadCapacities(images, c2).value);
  }
}

=== FILE: extract.dfy ===
/**
 * The reordering step of `mul_extract`: every recovered piece is put into
 * the slot its header names, header-only pieces are skipped, and the slots
 * are joined back into the payload.
 */
module Extract {
  import opened Common
  import opened Framing
  import SplitScrambled
  import Embed
  import Arith

  /** The slot vector `sorted_pieces` and the running `total_size`. */
  datatype Sorted = Sorted(slots: seq<seq<byte>>, totalSize: nat)

  /** A piece that fills slot `k`: it has a body, and its header names `k`. */
  predicate Carries(piece: seq<byte>, k: nat)
  {
    |piece| > HEADER_LEN && HeaderIndex(piece) == k
  }

  /** A piece the loop gets past with `n` slots: a bare header, or a header naming an existing slot. */
  predicate Admissible(piece: seq<byte>, n: nat)
  {
    |piece| == HEADER_LEN || (|piece| > HEADER_LEN && HeaderIndex(piece) < n)
  }

  /** The panic a piece the loop does not get past causes. */
  function Fault(piece: seq<byte>): Panic
  {
    if |piece| < HEADER_LEN then HeaderTooShort else SlotIndexOutOfBounds
  }

  /** One iteration of the loop over the recovered pieces. */
  function Place(s: Sorted, piece: seq<byte>): (r: Result<Sorted, Panic>)
    ensures r.Success? <==> Admissible(piece, |s.slots|)
    ensures r.Failure? ==> r.error == Fault(piece)
    ensures r.Success? ==> |r.value.slots| == |s.slots|
    ensures r.Success? ==> forall k :: 0 <= k < |s.slots| ==>
      r.value.slots[k] == if Carries(piece, k) then Body(piece) else s.slots[k]
    ensures r.Success? ==> r.value.totalSize + HEADER_LEN == s.totalSize + |piece|
  {
    if |piece| == HEADER_LEN then
      Success(s)
    else if |piece| < HEADER_LEN then
      Failure(HeaderTooShort)
    else
      var index := HeaderIndex(piece);
      if index >= |s.slots| then
        Failure(SlotIndexOutOfBounds)
      else
        Success(Sorted(s.slots[index := Body(piece)], s.totalSize + (|piece| - HEADER_LEN)))
  }

  /** The position of the last piece carrying slot `k`, or -1 when none does. */
  function LastCarrier(pieces: seq<seq<byte>>, k: nat): (c: int)
    ensures -1 <= c < |pieces|
    ensures c >= 0 ==> Carries(pieces[c], k)
    ensures forall i :: c < i < |pieces| ==> !Carries(pieces[i], k)
  {
    if |pieces| == 0 then -1
    else if Carries(pieces[|pieces| - 1], k) then |pieces| - 1
    else LastCarrier(pieces[..|pieces| - 1], k)
  }

  /** What slot `k` ends up holding: the body of its last carrier, or nothing. */
  function SlotContent(pieces: seq<seq<byte>>, k: nat): seq<byte>
  {
    var c := LastCarrier(pieces, k);
    if c < 0 then [] else Body(pieces[c])
  }

  /** The loop over the recovered pieces, starting from `n` empty slots. */
  function SortAll(pieces: seq<seq<byte>>, n: nat): (r: Result<Sorted, Panic>)
    ensures r.Success? <==> forall i :: 0 <= i < |pieces| ==> Admissible(pieces[i], n)
    ensures r.Success? ==> |r.value.slots| == n
    ensures r.Success? ==> forall k :: 0 <= k < n ==> r.value.slots[k] == SlotContent(pieces, k)
    ensures r.Success? ==> r.value.totalSize + HEADER_LEN * |pieces| == TotalLen(pieces)
  {
    if |pieces| == 0 then
      Success(Sorted(SplitScrambled.EmptyBuckets(n), 0))
    else
      var m := |pieces| - 1;
      var prefix := pieces[..m];
      assert forall i :: 0 <= i < m ==> prefix[i] == pieces[i];
      match SortAll(prefix, n)
      case Failure(e) =>
        Failure(e)
      case Success(s) =>
        var r := Place(s, pieces[m]);
        if r.Failure? then
          r
        else
          PlaceExtends(pieces, n, s);
          r
  }

  /** The loop panics at the first piece it cannot get past, with that piece's panic. */
  lemma {:induction false} SortAllFault(pieces: seq<seq<byte>>, n: nat)
    requires SortAll(pieces, n).Failure?
    ensures exists i :: (0 <= i < |pieces| && !Admissible(pieces[i], n) &&
      SortAll(pieces, n).error == Fault(pieces[i]) && forall i' :: 0 <= i' < i ==> Admissible(pieces[i'], n))
  {
    var m := |pieces| - 1;
    var prefix := pieces[..m];
    assert forall i :: 0 <= i < m ==> prefix[i] == pieces[i];
    if SortAll(prefix, n).Failure? {
      SortAllFault(prefix, n);
      var i :| 0 <= i < m && !Admissible(prefix[i], n) && SortAll(prefix, n).error == Fault(prefix[i]) &&
        forall i' :: 0 <= i' < i ==> Admissible(prefix[i'], n);
      assert SortAll(pieces, n).error == Fault(pieces[i]);
    } else {
      assert SortAll(pieces, n).error == Fault(pieces[m]);
    }
  }

  /** Placing the last piece turns what holds of the prefix into what holds of all pieces. */
  lemma PlaceExtends(pieces: seq<seq<byte>>, n: nat, s: Sorted)
    requires |pieces| > 0 && |s.slots| == n
    requires forall k :: 0 <= k < n ==> s.slots[k] == SlotContent(pieces[..|pieces| - 1], k)
    requires s.totalSize + HEADER_LEN * (|pieces| - 1) == TotalLen(pieces[..|pieces| - 1])
    requires Place(s, pieces[|pieces| - 1]).Success?
    ensures var t := Place(s, pieces[|pieces| - 1]).value;
      (forall k :: 0 <= k < n ==> t.slots[k] == SlotContent(pieces, k)) &&
      t.totalSize + HEADER_LEN * |pieces| == TotalLen(pieces)
  {
    var t := Place(s, pieces[|pieces| - 1]).value;
    forall k | 0 <= k < n ensures t.slots[k] == SlotContent(pieces, k) {
    }
  }

  /** `mul_extract` sorts the pieces into as many slots as there are images. */
  function Reassemble(pieces: seq<seq<byte>>): (r: Result<Sorted, Panic>)
    ensures r.Success? <==> forall i :: 0 <= i < |pieces| ==> Admissible(pieces[i], |pieces|)
    ensures r.Success? ==> |r.value.slots| == |pieces|
    ensures r.Success? ==> forall k :: 0 <= k < |pieces| ==> r.value.slots[k] == SlotContent(pieces, k)
  {
    SortAll(pieces, |pieces|)
  }

  /** The slot vector the loop leaves behind when it gets past every piece: slot k holds `SlotContent(pieces, k)`. */
  function SlotsOf(pieces: seq<seq<byte>>): (slots: seq<seq<byte>>)
    ensures |slots| == |pieces|
  {
    seq(|pieces|, k requires 0 <= k < |pieces| => SlotContent(pieces, k))
  }

  /** Every recovered piece gets past the reorder loop. */
  predicate AllAdmissible(pieces: seq<seq<byte>>)
  {
    forall i :: 0 <= i < |pieces| ==> Admissible(pieces[i], |pieces|)
  }

  /**
   * `mul_extract`: the pieces recovered from the images, in image order,
   * reordered and joined. It succeeds exactly when every piece gets past
   * the loop and the slots have the round-robin shape `join` needs; then
   * byte j of slot i is byte i + j * n of the output.
   */
  function MulExtract(pieces: seq<seq<byte>>): (r: Result<seq<byte>, Panic>)
    ensures r.Success? <==> AllAdmissible(pieces) && SplitScrambled.IsRoundRobinShape(SlotsOf(pieces))
    ensures r.Failure? && AllAdmissible(pieces) ==> r.error == JoinIndexOutOfBounds
    ensures r.Success? ==> |r.value| == TotalLen(SlotsOf(pieces))
    ensures r.Success? ==> forall i, j :: 0 <= i < |pieces| && 0 <= j < |SlotContent(pieces, i)| ==>
      Arith.Offset(i, j, |pieces|) < |r.value| && r.value[Arith.Offset(i, j, |pieces|)] == SlotContent(pieces, i)[j]
  {
    match Reassemble(pieces)
    case Failure(e) => Failure(e)
    case Success(sorted) =>
      assert sorted.slots == SlotsOf(pieces);
      SplitScrambled.Join(sorted.slots)
  }

  /** A piece the loop cannot get past makes `mul_extract` panic as the first such piece does. */
  lemma MulExtractFault(pieces: seq<seq<byte>>)
    requires !AllAdmissible(pieces)
    ensures exists i :: (0 <= i < |pieces| && !Admissible(pieces[i], |pieces|) &&
      MulExtract(pieces) == Failure(Fault(pieces[i])) &&
      forall i' :: 0 <= i' < i ==> Admissible(pieces[i'], |pieces|))
  {
    SortAllFault(pieces, |pieces|);
  }

  /** No two pieces with a body name the same slot. */
  predicate DistinctIndices(pieces: seq<seq<byte>>)
  {
    forall i, j :: 0 <= i < j < |pieces| && |pieces[i]| > HEADER_LEN && |pieces[j]| > HEADER_LEN ==>
      HeaderIndex(pieces[i]) != HeaderIndex(pieces[j])
  }

  /** With distinct indices a carrier of slot `k` is the only one. */
  lemma UniqueCarrier(pieces: seq<seq<byte>>, k: nat, c: nat)
    requires DistinctIndices(pieces)
    requires c < |pieces| && Carries(pieces[c], k)
    ensures LastCarrier(pieces, k) == c
  {
    forall i | 0 <= i < |pieces| && i != c ensures !Carries(pieces[i], k) {
      if |pieces[i]| > HEADER_LEN {
        assert HeaderIndex(pieces[i]) != HeaderIndex(pieces[c]);
      }
    }
  }

  /** Under distinct indices, slot contents only depend on which pieces there are, not on their order. */
  lemma SlotContentPermutation(a: seq<seq<byte>>, b: seq<seq<byte>>, k: nat)
    requires multiset(a) == multiset(b)
    requires DistinctIndices(a)
    ensures SlotContent(a, k) == SlotContent(b, k)
  {
    var cb := LastCarrier(b, k);
    if cb >= 0 {
      assert b[cb] in multiset(a);
      var ca :| 0 <= ca < |a| && a[ca] == b[cb];
      UniqueCarrier(a, k, ca);
    } else {
      forall i | 0 <= i < |a| ensures !Carries(a[i], k) {
        assert a[i] in multiset(b);
      }
    }
  }

  /**
   * Contrary to the warning in the documentation of `mul_extract`, the
   * order of the images does not matter: any permutation of pieces with
   * distinct header indices reassembles to the same slots, and fails for
   * one exactly when it fails for the other.
   */
  lemma ReassembleOrderIndependent(a: seq<seq<byte>>, b: seq<seq<byte>>)
    requires multiset(a) == multiset(b)
    requires DistinctIndices(a)
    ensures Reassemble(a).Success? <==> Reassemble(b).Success?
    ensures Reassemble(a).Success? ==> Reassemble(a).value == Reassemble(b).value
  {
    assert |a| == |multiset(a)| == |multiset(b)| == |b|;
    var n := |a|;
    if Reassemble(a).Success? {
      forall j | 0 <= j < n ensures Admissible(b[j], n) {
        assert b[j] in multiset(a);
      }
    } else {
      var i :| 0 <= i < n && !Admissible(a[i], n);
      assert a[i] in multiset(b);
    }
    if Reassemble(a).Success? {
      var sa := Reassemble(a).value;
      var sb := Reassemble(b).value;
      forall k | 0 <= k < n ensures sa.slots[k] == sb.slots[k] {
        SlotContentPermutation(a, b, k);
      }
      assert sa.slots == sb.slots;
      TotalLenPermutation(a, b);
    }
  }

  /** Framed parts carry distinct indices: part i names slot i. */
  lemma FramedPartsDistinct(buckets: seq<seq<byte>>)
    requires |buckets| <= U64_LIMIT
    ensures DistinctIndices(Embed.FramedParts(buckets))
  {
  }

  /** Reassembling the framed parts in their own order gives back the buckets. */
  lemma ReassembleFramed(buckets: seq<seq<byte>>)
    requires |buckets| <= U64_LIMIT
    ensures Reassemble(Embed.FramedParts(buckets)).Success?
    ensures Reassemble(Embed.FramedParts(buckets)).value.slots == buckets
  {
    var parts := Embed.FramedParts(buckets);
    var n := |buckets|;
    assert forall i :: 0 <= i < n ==> Admissible(parts[i], n);
    var slots := Reassemble(parts).value.slots;
    forall k | 0 <= k < n ensures slots[k] == buckets[k] {
      FramedSlot(buckets, k);
    }
  }

  /** Slot k of the framed parts holds bucket k: part k is its only carrier, or it has none and bucket k is empty. */
  lemma FramedSlot(buckets: seq<seq<byte>>, k: nat)
    requires |buckets| <= U64_LIMIT && k < |buckets|
    ensures SlotContent(Embed.FramedParts(buckets), k) == buckets[k]
  {
    var parts := Embed.FramedParts(buckets);
    if |buckets[k]| > 0 {
      UniqueCarrier(parts, k, k);
    } else {
      forall i | 0 <= i < |parts| ensures !Carries(parts[i], k) {
        assert i == k || HeaderIndex(parts[i]) == i != k;
      }
    }
  }

  /**
   * The round trip of the whole tool: whatever order the images come back
   * in, extracting from the images `mul_embed` wrote gives back the payload.
   */
  lemma EmbedThenExtract(input: seq<byte>, images: seq<string>, capacityOf: string -> Result<u64, Panic>,
                         recovered: seq<seq<byte>>)
    requires |images| <= U64_LIMIT && Embed.AllReadable(images, capacityOf)
    requires |images| > 0 || |input| == 0
    requires multiset(recovered) == multiset(Embed.Fragments(Embed.MulEmbed(input, images, capacityOf).value))
    ensures MulExtract(recovered) == Success(input)
  {
    var capacities := Embed.ReadCapacities(images, capacityOf).value;
    var buckets := SplitScrambled.Split(input, capacities).value;
    var parts := Embed.FramedParts(buckets);
    Embed.MulEmbedFragments(input, images, capacityOf);
    FramedPartsDistinct(buckets);
    ReassembleFramed(buckets);
    ReassembleOrderIndependent(parts, recovered);
    SplitScrambled.JoinSplit(input, capacities);
  }

  /** Six bytes over three images: bucket i holds bytes i and i + 3. */
  lemma SplitSixOverThree(data: seq<byte>, capacities: seq<u64>)
    requires |data| == 6 && |capacities| == 3
    ensures SplitScrambled.Split(data, capacities) == Success([[data[0], data[3]], [data[1], data[4]], [data[2], data[5]]])
  {
    var b := SplitScrambled.Split(data, capacities).value;
    forall i, j | 0 <= i < 3 && 0 <= j < 2 ensures Arith.Offset(i, j, 3) == i + 3 * j {
      Arith.OffsetValue(i, j, 3);
    }
    forall i | 0 <= i < 3 ensures |b[i]| == 2 {
      SplitScrambled.SplitBucketAt(data, capacities, i, 2);
    }
    assert b[0] == [data[0], data[3]] && b[1] == [data[1], data[4]] && b[2] == [data[2], data[5]];
    assert b == [b[0], b[1], b[2]];
  }

  /** The parts framed for the first m buckets are the first m parts framed for all of them. */
  lemma FramedPrefix(buckets: seq<seq<byte>>, m: nat)
    requires m <= |buckets| <= U64_LIMIT
    ensures Embed.FramedParts(buckets)[..m] == Embed.FramedParts(buckets[..m])
  {
    var all := Embed.FramedParts(buckets);
    var parts := Embed.FramedParts(buckets[..m]);
    forall i | 0 <= i < m ensures all[..m][i] == parts[i] {
      assert all[i] == Frame(i, buckets[i]) && parts[i] == Frame(i, buckets[..m][i]);
    }
  }


  /** Four bytes over two images: bucket i holds bytes i and i + 2. */
  lemma SplitFourOverTwo(data: seq<byte>, capacities: seq<u64>)
    requires |data| == 4 && |capacities| == 2
    ensures SplitScrambled.Split(data, capacities) == Success([[data[0], data[2]], [data[1], data[3]]])
  {
    var b := SplitScrambled.Split(data, capacities).value;
    forall i, j | 0 <= i < 2 && 0 <= j < 2 ensures Arith.Offset(i, j, 2) == i + 2 * j {
      Arith.OffsetValue(i, j, 2);
    }
    forall i | 0 <= i < 2 ensures |b[i]| == 2 {
      SplitScrambled.SplitBucketAt(data, capacities, i, 2);
    }
    assert b[0] == [data[0], data[2]] && b[1] == [data[1], data[3]];
    assert b == [b[0], b[1]];
  }

  /** Extracting the framed buckets of a split, in image order, gives back the data. */
  lemma ExtractFramedSplit(data: seq<byte>, capacities: seq<u64>)
    requires |capacities| <= U64_LIMIT && SplitScrambled.Split(data, capacities).Success?
    ensures MulExtract(Embed.FramedParts(SplitScrambled.Split(data, capacities).value)) == Success(data)
  {
    var buckets := SplitScrambled.Split(data, capacities).value;
    var parts := Embed.FramedParts(buckets);
    ReassembleFramed(buckets);
    assert SlotsOf(parts) == buckets;
    SplitScrambled.JoinSplit(data, capacities);
  }

  /**
   * Leaving out the images with the highest indices panics nowhere: the
   * remaining headers all name a slot, the filled slots keep the round-robin
   * shape, and `join` interleaves them into a wrong payload. Here six bytes
   * go to three images and only the parts framed for the first two are
   * given back: the result is bytes 0, 1, 3 and 4, which is not a prefix of
   * the input unless bytes 2 to 4 are equal.
   */
  lemma HighestImageLeftOut(data: seq<byte>, capacities: seq<u64>)
    requires |data| == 6 && |capacities| == 3
    ensures SplitScrambled.Split(data, capacities).Success?
    ensures var parts := Embed.FramedParts(SplitScrambled.Split(data, capacities).value);
      MulExtract(parts[..2]) == Success([data[0], data[1], data[3], data[4]])
    ensures var parts := Embed.FramedParts(SplitScrambled.Split(data, capacities).value);
      data[2] != data[3] ==> MulExtract(parts[..2]) != Success(data[..4])
  {
    SplitSixOverThree(data, capacities);
    var buckets := SplitScrambled.Split(data, capacities).value;
    FramedPrefix(buckets, 2);
    var kept := [data[0], data[1], data[3], data[4]];
    SplitFourOverTwo(kept, capacities[..2]);
    assert buckets[..2] == SplitScrambled.Split(kept, capacities[..2]).value;
    ExtractFramedSplit(kept, capacities[..2]);
    assert data[..4][2] == data[2];
  }





}

=== FILE: framing.dfy ===
/**
 * The on-disk shape of one embedded piece: an 8-byte big-endian header
 * holding the piece's index, then the bucket's bytes.
 */
module Framing {
  import opened Common
  import BigEndian

  /** Width of the index header: `usize::to_be_bytes` on a 64-bit target. */
  const HEADER_LEN: nat := 8

  /** The header index read back from a piece, as `u64::from_be_bytes` of its first 8 bytes. */
  function HeaderIndex(piece: seq<byte>): (index: nat)
    requires |piece| >= HEADER_LEN
    ensures index < U64_LIMIT
  {
    BigEndian.Pow256Of8();
    BigEndian.Decode(piece[..HEADER_LEN])
  }

  /** The bucket bytes after the header. */
  function Body(piece: seq<byte>): seq<byte>
    requires |piece| >= HEADER_LEN
  {
    piece[HEADER_LEN..]
  }

  /** A bucket with its index spliced in front, as `bucket.splice(0..0, index.to_be_bytes())`. */
  function Frame(index: nat, bucket: seq<byte>): (piece: seq<byte>)
    requires index < U64_LIMIT
    ensures |piece| == |bucket| + HEADER_LEN
    ensures HeaderIndex(piece) == index
    ensures Body(piece) == bucket
  {
    BigEndian.Pow256Of8();
    var header := BigEndian.Encode(index, HEADER_LEN);
    var piece := header + bucket;
    assert piece[..HEADER_LEN] == header;
    piece
  }

  /** Every piece of at least 8 bytes is the framing of its own header index and body. */
  lemma UnframeFrame(piece: seq<byte>)
    requires |piece| >= HEADER_LEN
    ensures Frame(HeaderIndex(piece), Body(piece)) == piece
  {
    BigEndian.Pow256Of8();
    BigEndian.EncodeDecode(piece[..HEADER_LEN]);
    assert piece == piece[..HEADER_LEN] + piece[HEADER_LEN..];
  }

  /** Two framed pieces are equal only when both their indices and their buckets are. */
  lemma FrameInjective(i: nat, a: seq<byte>, j: nat, b: seq<byte>)
    requires i < U64_LIMIT && j < U64_LIMIT
    requires Frame(i, a) == Frame(j, b)
    ensures i == j && a == b
  {
  }
}

=== FILE: split_scrambled.dfy ===
/**
 * The `SplitScrambled` placement policy: `split` deals the payload bytes
 * round-robin into one bucket per capacity entry, and `join` undoes it by
 * stride placement into a zero-filled buffer. Throughout, `Offset(i, j, n)`
 * is the payload offset `i + j * n` of byte `j` in bucket `i` of `n`.
 */
module SplitScrambled {
  import opened Common
  import opened Arith

  /**
   * Number of offsets `k < total` with `k % n == i`: the length bucket `i`
   * reaches when `total` bytes are dealt round-robin over `n` buckets.
   */
  function BucketLen(total: nat, n: nat, i: nat): nat
    requires i < n
  {
    if total == 0 then 0
    else BucketLen(total - 1, n, i) + (if (total - 1) % n == i then 1 else 0)
  }

  /** Byte `j` of bucket `i` exists exactly when its offset is below the total. */
  lemma {:induction false} BucketLenIff(total: nat, n: nat, i: nat, j: nat)
    requires i < n
    ensures j < BucketLen(total, n, i) <==> Offset(i, j, n) < total
    decreases total, 0
  {
    if total > 0 {
      var t := total - 1;
      BucketLenIff(t, n, i, j);
      if t % n == i {
        BucketLenAtOwnOffset(t, n);
        OffsetDecompose(t, n);
        OffsetLess(i, j, Div(t, n), n);
        OffsetLess(i, Div(t, n), j, n);
      } else if Offset(i, j, n) == t {
        OffsetDivMod(i, j, n);
      }
    }
  }

  /** Before offset `t` is dealt, its bucket `t % n` holds exactly `t / n` bytes. */
  lemma {:induction false} BucketLenAtOwnOffset(t: nat, n: nat)
    requires n > 0
    ensures BucketLen(t, n, t % n) == t / n
    decreases t, 1
  {
    var i := Mod(t, n);
    var q := Div(t, n);
    var len := BucketLen(t, n, i);
    OffsetDecompose(t, n);
    BucketLenIff(t, n, i, len);
    OffsetLess(i, len, q, n);
    if len > 0 {
      BucketLenIff(t, n, i, len - 1);
      OffsetLess(i, len - 1, q, n);
    }
  }

  /** Dealing the byte at offset `total` lengthens bucket `total % n` only. */
  lemma BucketLenStep(total: nat, n: nat, i: nat)
    requires i < n
    ensures i == total % n ==> BucketLen(total, n, i) == total / n
    ensures BucketLen(total + 1, n, i) == BucketLen(total, n, i) + (if i == total % n then 1 else 0)
  {
    if i == total % n {
      BucketLenAtOwnOffset(total, n);
    }
  }

  /** `n` empty buckets. */
  function EmptyBuckets(n: nat): (buckets: seq<seq<byte>>)
    ensures |buckets| == n && forall i :: 0 <= i < n ==> buckets[i] == []
  {
    seq(n, _ => [])
  }

  lemma {:induction false} EmptyTotalLen(n: nat)
    ensures TotalLen(EmptyBuckets(n)) == 0
  {
    if n > 0 {
      assert EmptyBuckets(n)[..n - 1] == EmptyBuckets(n - 1);
      EmptyTotalLen(n - 1);
    }
  }

  /**
   * The buckets after the loop of `split` has consumed `data`, for `n > 0`
   * buckets: after k bytes the loop's `next_bin` is `k % n`, so byte k is
   * pushed onto bucket `k % n`, where it lands at position `k / n`.
   */
  function Deal(data: seq<byte>, n: nat): (buckets: seq<seq<byte>>)
    requires n > 0
    ensures |buckets| == n
    ensures forall i :: 0 <= i < n ==> |buckets[i]| == BucketLen(|data|, n, i)
    ensures forall i, j :: 0 <= i < n && 0 <= j < |buckets[i]| ==>
      Offset(i, j, n) < |data| && buckets[i][j] == data[Offset(i, j, n)]
    ensures TotalLen(buckets) == |data|
    decreases |data|
  {
    if |data| == 0 then
      var empty := EmptyBuckets(n);
      assert forall i :: 0 <= i < n ==> BucketLen(0, n, i) == 0;
      EmptyTotalLen(n);
      empty
    else
      var k := |data| - 1;
      var prev := Deal(data[..k], n);
      var b := Mod(k, n);
      var buckets := prev[b := prev[b] + [data[k]]];
      DealLengthsStep(k, n, prev, buckets);
      BucketLenStep(k, n, b);
      OffsetDecompose(k, n);
      DealPlacementStep(data, n, prev, b, buckets);
      TotalLenUpdate(prev, b, [data[k]]);
      buckets
  }

  /** Dealing the byte at offset `k` lengthens bucket `k % n` only. */
  lemma DealLengthsStep(k: nat, n: nat, prev: seq<seq<byte>>, buckets: seq<seq<byte>>)
    requires n > 0 && |prev| == n
    requires forall i :: 0 <= i < n ==> |prev[i]| == BucketLen(k, n, i)
    requires |buckets| == n && |buckets[k % n]| == |prev[k % n]| + 1
    requires forall i :: 0 <= i < n && i != k % n ==> buckets[i] == prev[i]
    ensures forall i :: 0 <= i < n ==> |buckets[i]| == BucketLen(k + 1, n, i)
  {
    forall i | 0 <= i < n
      ensures |buckets[i]| == BucketLen(k + 1, n, i)
    {
      BucketLenStep(k, n, i);
    }
  }

  /** Pushing the last byte of `data` onto bucket `b`, where its offset belongs, keeps every byte at its offset. */
  lemma DealPlacementStep(data: seq<byte>, n: nat, prev: seq<seq<byte>>, b: nat, buckets: seq<seq<byte>>)
    requires |data| > 0
    requires b < |prev| == n
    requires Offset(b, |prev[b]|, n) == |data| - 1
    requires forall i, j :: 0 <= i < n && 0 <= j < |prev[i]| ==>
      Offset(i, j, n) < |data| - 1 && prev[i][j] == data[..|data| - 1][Offset(i, j, n)]
    requires buckets == prev[b := prev[b] + [data[|data| - 1]]]
    ensures forall i, j :: 0 <= i < n && 0 <= j < |buckets[i]| ==>
      Offset(i, j, n) < |data| && buckets[i][j] == data[Offset(i, j, n)]
  {
    forall i, j | 0 <= i < n && 0 <= j < |buckets[i]|
      ensures Offset(i, j, n) < |data| && buckets[i][j] == data[Offset(i, j, n)]
    {
      if i != b {
        assert buckets[i] == prev[i];
      } else if j < |prev[b]| {
        assert buckets[i][j] == prev[i][j];
      }
    }
  }

  /**
   * `SplitScrambled::split`: one bucket per capacity entry. Only the number
   * of entries is read, never their values. With no entries and some data
   * the first push indexes an empty vector and panics.
   */
  function Split(data: seq<byte>, capacities: seq<u64>): (r: Result<seq<seq<byte>>, Panic>)
    ensures r.Failure? <==> |capacities| == 0 && |data| > 0
    ensures r.Success? ==> |r.value| == |capacities| && TotalLen(r.value) == |data|
    ensures r.Success? ==> IsRoundRobinShape(r.value)
    ensures r.Success? ==> forall i, j :: 0 <= i < |r.value| && 0 <= j < |r.value[i]| ==>
      Offset(i, j, |capacities|) < |data| && r.value[i][j] == data[Offset(i, j, |capacities|)]
  {
    if |capacities| == 0 then
      if |data| == 0 then Success([]) else Failure(BucketIndexOutOfBounds)
    else
      Success(Deal(data, |capacities|))
  }

  /** Byte j of bucket i, when there is one. */
  function ByteAt(buckets: seq<seq<byte>>, i: int, j: int): Option<byte>
  {
    if 0 <= i < |buckets| && 0 <= j < |buckets[i]| then Some(buckets[i][j]) else None
  }

  /** Payload byte k lands in bucket k mod N at position k div N. */
  lemma SplitPlacesByte(data: seq<byte>, capacities: seq<u64>, k: nat)
    requires |capacities| > 0 && k < |data|
    ensures ByteAt(Split(data, capacities).value, k % |capacities|, k / |capacities|) == Some(data[k])
  {
    var n := |capacities|;
    OffsetDecompose(k, n);
    BucketLenIff(|data|, n, Mod(k, n), Div(k, n));
  }

  /** Split ignores the capacity values: only their count matters. */
  lemma SplitIgnoresCapacityValues(data: seq<byte>, c1: seq<u64>, c2: seq<u64>)
    requires |c1| == |c2|
    ensures Split(data, c1) == Split(data, c2)
  {
  }

  /** Bucket lengths never grow with the index, and any two differ by at most one. */
  lemma SplitBalanced(data: seq<byte>, capacities: seq<u64>, i: nat, i': nat)
    requires i <= i' < |capacities|
    ensures |Split(data, capacities).value[i']| <= |Split(data, capacities).value[i]|
    ensures |Split(data, capacities).value[i]| <= |Split(data, capacities).value[i']| + 1
  {
    BucketLenBalanced(|data|, |capacities|, i, i');
  }

  lemma {:induction false} BucketLenBalanced(total: nat, n: nat, i: nat, i': nat)
    requires i <= i' < n
    ensures BucketLen(total, n, i') <= BucketLen(total, n, i) <= BucketLen(total, n, i') + 1
  {
    var len := BucketLen(total, n, i);
    var len' := BucketLen(total, n, i');
    if len' > 0 {
      BucketLenIff(total, n, i', len' - 1);
      OffsetBetween(i, i', len' - 1, n);
      BucketLenIff(total, n, i, len' - 1);
    }
    if len >= 2 {
      BucketLenIff(total, n, i, len - 1);
      OffsetBetween(i, i', len - 2, n);
      BucketLenIff(total, n, i', len - 2);
    }
  }

  /** Split yields N empty buckets for an empty payload. */
  lemma SplitEmpty(capacities: seq<u64>)
    ensures Split([], capacities) == Success(EmptyBuckets(|capacities|))
  {
  }

  /**
   * Every write of `join` lands inside the buffer: the last byte of piece i
   * goes to offset i + (len - 1) * N, which must be below the total length.
   */
  predicate WritesInBounds(pieces: seq<seq<byte>>)
  {
    forall i :: 0 <= i < |pieces| && |pieces[i]| > 0 ==>
      Offset(i, |pieces[i]| - 1, |pieces|) < TotalLen(pieces)
  }

  /** The piece lengths are exactly those `split` produces for the same total. */
  predicate IsRoundRobinShape(pieces: seq<seq<byte>>)
  {
    forall i :: 0 <= i < |pieces| ==> |pieces[i]| == BucketLen(TotalLen(pieces), |pieces|, i)
  }

  /** The buffer after every in-bounds write: byte j of piece i at offset i + j * N, zeros elsewhere. */
  function Interleave(pieces: seq<seq<byte>>): seq<byte>
  {
    var n := |pieces|;
    seq(TotalLen(pieces), k =>
      if 0 <= k && n > 0 && k / n < |pieces[k % n]| then pieces[k % n][k / n] else 0)
  }

  /** Pointwise at most and the same sum means equal lengths everywhere. */
  lemma {:induction false} EqualLengthsFromSum(a: seq<seq<byte>>, b: seq<seq<byte>>)
    requires |a| == |b|
    requires forall i :: 0 <= i < |a| ==> |a[i]| <= |b[i]|
    requires TotalLen(a) == TotalLen(b)
    ensures forall i :: 0 <= i < |a| ==> |a[i]| == |b[i]|
  {
    if |a| > 0 {
      var m := |a| - 1;
      assert forall i :: 0 <= i < m ==> a[..m][i] == a[i] && b[..m][i] == b[i];
      PointwiseTotalLen(a[..m], b[..m]);
      EqualLengthsFromSum(a[..m], b[..m]);
    }
  }

  lemma {:induction false} PointwiseTotalLen(a: seq<seq<byte>>, b: seq<seq<byte>>)
    requires |a| == |b|
    requires forall i :: 0 <= i < |a| ==> |a[i]| <= |b[i]|
    ensures TotalLen(a) <= TotalLen(b)
  {
    if |a| > 0 {
      var m := |a| - 1;
      assert forall i :: 0 <= i < m ==> a[..m][i] == a[i] && b[..m][i] == b[i];
      PointwiseTotalLen(a[..m], b[..m]);
    }
  }

  /**
   * `join` stays in bounds exactly for the piece lengths `split` produces:
   * round-robin shape in both directions.
   */
  lemma {:induction false} InBoundsIffShape(pieces: seq<seq<byte>>)
    ensures WritesInBounds(pieces) <==> IsRoundRobinShape(pieces)
  {
    var n := |pieces|;
    var total := TotalLen(pieces);
    if IsRoundRobinShape(pieces) {
      forall i | 0 <= i < n && |pieces[i]| > 0
        ensures Offset(i, |pieces[i]| - 1, n) < total
      {
        BucketLenIff(total, n, i, |pieces[i]| - 1);
      }
    }
    if WritesInBounds(pieces) && n > 0 {
      var reference := Deal(seq(total, _ => 0), n);
      forall i | 0 <= i < n ensures |pieces[i]| <= |reference[i]| {
        if |pieces[i]| > 0 {
          BucketLenIff(total, n, i, |pieces[i]| - 1);
        }
      }
      EqualLengthsFromSum(pieces, reference);
    }
  }

  /** In a buffer of round-robin shape, byte j of piece i is found at offset i + j * N. */
  lemma InterleavePlacement(pieces: seq<seq<byte>>)
    requires IsRoundRobinShape(pieces)
    ensures forall i, j :: 0 <= i < |pieces| && 0 <= j < |pieces[i]| ==>
      Offset(i, j, |pieces|) < |Interleave(pieces)| &&
      Interleave(pieces)[Offset(i, j, |pieces|)] == pieces[i][j]
  {
    var n := |pieces|;
    forall i, j | 0 <= i < n && 0 <= j < |pieces[i]|
      ensures Offset(i, j, n) < |Interleave(pieces)| && Interleave(pieces)[Offset(i, j, n)] == pieces[i][j]
    {
      BucketLenIff(TotalLen(pieces), n, i, j);
      OffsetDivMod(i, j, n);
    }
  }

  /**
   * `SplitScrambled::join`: a zero buffer of the summed piece length, into
   * which byte j of piece i is written at offset i + j * N. It panics on a
   * write past the end, which happens exactly when the piece lengths do not
   * have the round-robin shape.
   */
  function Join(pieces: seq<seq<byte>>): (r: Result<seq<byte>, Panic>)
    ensures r.Success? <==> IsRoundRobinShape(pieces)
    ensures r.Failure? ==> r.error == JoinIndexOutOfBounds
    ensures r.Success? ==> |r.value| == TotalLen(pieces)
    ensures r.Success? ==> forall i, j :: 0 <= i < |pieces| && 0 <= j < |pieces[i]| ==>
      Offset(i, j, |pieces|) < |r.value| && r.value[Offset(i, j, |pieces|)] == pieces[i][j]
  {
    InBoundsIffShape(pieces);
    if WritesInBounds(pieces) then
      InterleavePlacement(pieces);
      Success(Interleave(pieces))
    else
      Failure(JoinIndexOutOfBounds)
  }

  /** Round trip promised by the `Split` trait: join undoes split. */
  lemma {:induction false} JoinSplit(data: seq<byte>, capacities: seq<u64>)
    requires |capacities| > 0 || |data| == 0
    ensures Split(data, capacities).Success?
    ensures Join(Split(data, capacities).value) == Success(data)
  {
    var buckets := Split(data, capacities).value;
    var r := Join(buckets);
    assert r.Success?;
    var joined := r.value;
    assert |joined| == |data|;
    forall k | 0 <= k < |data| ensures joined[k] == data[k] {
      JoinSplitAt(data, capacities, buckets, joined, k);
    }
    assert joined == data;
  }

  /** One byte of the round trip: offset k is written from bucket k mod N, position k div N. */
  lemma JoinSplitAt(data: seq<byte>, capacities: seq<u64>, buckets: seq<seq<byte>>, joined: seq<byte>, k: nat)
    requires |capacities| > 0 && k < |data|
    requires buckets == Split(data, capacities).value
    requires |joined| == |data|
    requires forall i, j :: 0 <= i < |buckets| && 0 <= j < |buckets[i]| ==>
      Offset(i, j, |buckets|) < |joined| && joined[Offset(i, j, |buckets|)] == buckets[i][j]
    ensures joined[k] == data[k]
  {
    var n := |buckets|;
    var i, j := OffsetOf(k, n);
    BucketLenIff(|data|, n, i, j);
    assert j < |buckets[i]|;
  }

  // ---------------------------------------------------------------------
  // The array-filling loop of `join`, statement by statement.

  /** Buffer byte k once pieces below `p` and the first `j` bytes of piece `p` are written. */
  function Filled(pieces: seq<seq<byte>>, p: nat, j: nat, k: nat): byte
  {
    var n := |pieces|;
    if n == 0 then 0
    else
      var i := Mod(k, n);
      var q := Div(k, n);
      if (i < p || (i == p && q < j)) && q < |pieces[i]| then pieces[i][q] else 0
  }

  lemma FilledWrite(pieces: seq<seq<byte>>, p: nat, j: nat, k: nat)
    requires p < |pieces| && j < |pieces[p]|
    ensures Filled(pieces, p, j + 1, k) ==
      if k == Offset(p, j, |pieces|) then pieces[p][j] else Filled(pieces, p, j, k)
  {
    var n := |pieces|;
    OffsetDecompose(k, n);
    OffsetDivMod(p, j, n);
  }

  /** The whole buffer of `total` bytes at that point of the loops. */
  function FilledBuffer(pieces: seq<seq<byte>>, p: nat, j: nat, total: nat): (buffer: seq<byte>)
    ensures |buffer| == total
  {
    seq(total, k requires 0 <= k => Filled(pieces, p, j, k))
  }

  /** Nothing is written before the loops start. */
  lemma FilledBufferStart(pieces: seq<seq<byte>>, total: nat)
    ensures FilledBuffer(pieces, 0, 0, total) == seq(total, _ => 0)
  {
  }

  /** One statement of the inner loop: byte j of piece p is written at its offset. */
  lemma FilledBufferWrite(pieces: seq<seq<byte>>, p: nat, j: nat, total: nat)
    requires p < |pieces| && j < |pieces[p]| && Offset(p, j, |pieces|) < total
    ensures FilledBuffer(pieces, p, j + 1, total) ==
      FilledBuffer(pieces, p, j, total)[Offset(p, j, |pieces|) := pieces[p][j]]
  {
    var after := FilledBuffer(pieces, p, j + 1, total);
    var written := FilledBuffer(pieces, p, j, total)[Offset(p, j, |pieces|) := pieces[p][j]];
    forall k | 0 <= k < total ensures after[k] == written[k] {
      FilledWrite(pieces, p, j, k);
    }
  }

  /** Finishing piece `p` is the same as starting piece `p + 1`. */
  lemma FilledBufferNext(pieces: seq<seq<byte>>, p: nat, total: nat)
    requires p < |pieces|
    ensures FilledBuffer(pieces, p, |pieces[p]|, total) == FilledBuffer(pieces, p + 1, 0, total)
  {
  }

  /** Once every piece is written the buffer is the interleaving. */
  lemma FilledBufferComplete(pieces: seq<seq<byte>>)
    ensures FilledBuffer(pieces, |pieces|, 0, TotalLen(pieces)) == Interleave(pieces)
  {
  }

  /** The first loop of `join`: the summed length of the pieces. */
  method SumLengths(pieces: seq<seq<byte>>) returns (total: nat)
    ensures total == TotalLen(pieces)
  {
    total := 0;
    var i := 0;
    while i < |pieces|
      invariant 0 <= i <= |pieces|
      invariant total == TotalLen(pieces[..i])
    {
      assert pieces[..i + 1][..i] == pieces[..i];
      total := total + |pieces[i]|;
      i := i + 1;
    }
    assert pieces[..|pieces|] == pieces;
  }

  /**
   * The inner loop of `join` for piece `p`: its bytes are written at their
   * offsets, or the first write past the end panics.
   */
  method WritePiece(pieces: seq<seq<byte>>, unified: array<byte>, p: nat) returns (ok: bool)
    requires p < |pieces| && unified.Length == TotalLen(pieces)
    requires unified[..] == FilledBuffer(pieces, p, 0, unified.Length)
    modifies unified
    ensures ok ==> unified[..] == FilledBuffer(pieces, p + 1, 0, unified.Length)
    ensures ok ==> |pieces[p]| > 0 ==> Offset(p, |pieces[p]| - 1, |pieces|) < unified.Length
    ensures !ok ==> !WritesInBounds(pieces)
  {
    var total := unified.Length;
    var n := |pieces|;
    var piece := pieces[p];
    var num := 0;
    while num < |piece|
      invariant 0 <= num <= |piece|
      invariant num > 0 ==> Offset(p, num - 1, n) < total
      invariant unified[..] == FilledBuffer(pieces, p, num, total)
    {
      var pos := p + num * n;
      OffsetValue(p, num, n);
      if pos >= total {
        OffsetLess(p, num, |piece| - 1, n);
        return false;
      }
      FilledBufferWrite(pieces, p, num, total);
      unified[pos] := piece[num];
      num := num + 1;
    }
    FilledBufferNext(pieces, p, total);
    return true;
  }

  /** The writes of the pieces below `m` all land inside the buffer. */
  predicate PiecesInBounds(pieces: seq<seq<byte>>, m: nat)
  {
    forall p :: 0 <= p < m && p < |pieces| && |pieces[p]| > 0 ==>
      Offset(p, |pieces[p]| - 1, |pieces|) < TotalLen(pieces)
  }

  /** When every piece has been written without a panic, the buffer is what `Join` returns. */
  lemma JoinAfterAllWrites(pieces: seq<seq<byte>>)
    requires PiecesInBounds(pieces, |pieces|)
    ensures Join(pieces) == Success(FilledBuffer(pieces, |pieces|, 0, TotalLen(pieces)))
  {
    assert WritesInBounds(pieces);
    FilledBufferComplete(pieces);
  }

  /** A write past the end means `Join` panics. */
  lemma JoinAfterBadWrite(pieces: seq<seq<byte>>)
    requires !WritesInBounds(pieces)
    ensures Join(pieces) == Failure(JoinIndexOutOfBounds)
  {
  }

  /** The outer loop of `SplitScrambled::join`: writes the pieces in turn, stopping at the first write past the end. */
  method WriteAll(pieces: seq<seq<byte>>, unified: array<byte>) returns (ok: bool)
    requires unified.Length == TotalLen(pieces)
    requires unified[..] == FilledBuffer(pieces, 0, 0, unified.Length)
    modifies unified
    ensures ok ==> PiecesInBounds(pieces, |pieces|)
    ensures ok ==> unified[..] == FilledBuffer(pieces, |pieces|, 0, unified.Length)
    ensures !ok ==> !WritesInBounds(pieces)
  {
    var offset := 0;
    while offset < |pieces|
      invariant 0 <= offset <= |pieces|
      invariant PiecesInBounds(pieces, offset)
      invariant unified[..] == FilledBuffer(pieces, offset, 0, unified.Length)
    {
      ok := WritePiece(pieces, unified, offset);
      if !ok {
        return;
      }
      offset := offset + 1;
    }
    ok := true;
  }

  /** The loops of `SplitScrambled::join` over a mutable buffer; agrees with `Join`. */
  method JoinInPlace(pieces: seq<seq<byte>>) returns (r: Result<seq<byte>, Panic>)
    ensures r == Join(pieces)
  {
    var total := SumLengths(pieces);
    var unified := new byte[total](_ => 0);
    FilledBufferStart(pieces, total);
    var ok := WriteAll(pieces, unified);
    if !ok {
      JoinAfterBadWrite(pieces);
      return Failure(JoinIndexOutOfBounds);
    }
    JoinAfterAllWrites(pieces);
    r := Success(unified[..]);
  }

  // ---------------------------------------------------------------------
  // The example in the documentation of `SplitScrambled`.

  function AsciiByte(c: char): byte
    requires c as int < 256
  {
    c as int
  }

  /** ASCII text as bytes. */
  function Ascii(s: string): (bytes: seq<byte>)
    requires forall k :: 0 <= k < |s| ==> s[k] as int < 256
    ensures |bytes| == |s|
    ensures forall k :: 0 <= k < |s| ==> bytes[k] == s[k] as int
  {
    seq(|s|, k requires 0 <= k < |s| => AsciiByte(s[k]))
  }

  /** Bucket `i` of a split holds `len` bytes when its last offset is the last one below the total. */
  lemma SplitBucketAt(data: seq<byte>, capacities: seq<u64>, i: nat, len: nat)
    requires i < |capacities| && len > 0
    requires Offset(i, len - 1, |capacities|) < |data| <= Offset(i, len, |capacities|)
    ensures |Split(data, capacities).value[i]| == len
  {
    var n := |capacities|;
    BucketLenIff(|data|, n, i, len - 1);
    BucketLenIff(|data|, n, i, len);
  }

  /** The sentence used in the documentation of `SplitScrambled`. */
  function DocText(): seq<byte>
  {
    Ascii("this is a text")
  }

  lemma DocBucket0(capacities: seq<u64>)
    requires |capacities| == 3
    ensures Split(DocText(), capacities).value[0] == Ascii("tss x")
  {
    var data := DocText();
    var b := Split(data, capacities).value;
    forall j | 0 <= j < 5 ensures Offset(0, j, 3) == 0 + 3 * j {
      OffsetValue(0, j, 3);
    }
    SplitBucketAt(data, capacities, 0, 5);
    assert b[0][0] == data[0] && b[0][1] == data[3] && b[0][2] == data[6];
    assert b[0][3] == data[9] && b[0][4] == data[12];
  }

  lemma DocBucket1(capacities: seq<u64>)
    requires |capacities| == 3
    ensures Split(DocText(), capacities).value[1] == Ascii("h  tt")
  {
    var data := DocText();
    var b := Split(data, capacities).value;
    forall j | 0 <= j < 5 ensures Offset(1, j, 3) == 1 + 3 * j {
      OffsetValue(1, j, 3);
    }
    SplitBucketAt(data, capacities, 1, 5);
    assert b[1][0] == data[1] && b[1][1] == data[4] && b[1][2] == data[7];
    assert b[1][3] == data[10] && b[1][4] == data[13];
  }

  lemma DocBucket2(capacities: seq<u64>)
    requires |capacities| == 3
    ensures Split(DocText(), capacities).value[2] == Ascii("iiae")
  {
    var data := DocText();
    var b := Split(data, capacities).value;
    forall j | 0 <= j < 5 ensures Offset(2, j, 3) == 2 + 3 * j {
      OffsetValue(2, j, 3);
    }
    SplitBucketAt(data, capacities, 2, 4);
    assert b[2][0] == data[2] && b[2][1] == data[5] && b[2][2] == data[8] && b[2][3] == data[11];
  }

  /**
   * "this is a text" over three buckets gives "tss x", "h  tt" and "iiae";
   * the documented first bucket "tss s" is not what the code produces.
   */
  lemma DocExample(capacities: seq<u64>)
    requires |capacities| == 3
    ensures Split(DocText(), capacities) == Success([Ascii("tss x"), Ascii("h  tt"), Ascii("iiae")])
    ensures Split(DocText(), capacities).value[0] != Ascii("tss s")
  {
    var b := Split(DocText(), capacities).value;
    DocBucket0(capacities);
    DocBucket1(capacities);
    DocBucket2(capacities);
    assert b == [b[0], b[1], b[2]];
    assert b[0][4] != Ascii("tss s")[4];
  }
}

=== FILE: text.dfy ===
/**
 * The string operations of Rust's `str` that the capacity report parser
 * relies on, with Rust's semantics: `lines`, `contains`, `split(':').nth(1)`,
 * `trim` and `split_whitespace`. Whitespace is Unicode `White_Space`, as for
 * `char::is_whitespace`.
 */
module Text {
  import opened Common

  /** Unicode `White_Space`. */
  predicate IsWhitespace(c: char)
  {
    ('\t' <= c <= '\r') || c == ' ' || c == '\U{0085}' || c == '\U{00A0}' || c == '\U{1680}' ||
    ('\U{2000}' <= c <= '\U{200A}') || c == '\U{2028}' || c == '\U{2029}' || c == '\U{202F}' ||
    c == '\U{205F}' || c == '\U{3000}'
  }

  predicate NoWhitespace(s: string)
  {
    forall i :: 0 <= i < |s| ==> !IsWhitespace(s[i])
  }

  /** A token of `split_whitespace`: non-empty and free of whitespace. */
  predicate IsWord(s: string)
  {
    |s| > 0 && NoWhitespace(s)
  }

  /** Position of the first `c` in `s`. */
  function IndexOf(s: string, c: char): (r: Option<nat>)
    ensures r.None? <==> c !in s
    ensures r.Some? ==> r.value < |s| && s[r.value] == c && c !in s[..r.value]
  {
    if |s| == 0 then None
    else if s[0] == c then Some(0)
    else
      match IndexOf(s[1..], c)
      case None => None
      case Some(i) =>
        assert s[..i + 1] == [s[0]] + s[1..][..i];
        Some(i + 1)
  }

  // ---------------------------------------------------------------------
  // `str::lines`

  /** A line ending may be `\r\n`: the `\r` in front of the `\n` is not part of the line. */
  function StripCarriageReturn(line: string): string
  {
    if |line| > 0 && line[|line| - 1] == '\r' then line[..|line| - 1] else line
  }

  /**
   * `str::lines`: the text between line feeds, without a `\r` right before a
   * line feed; a final line feed does not start another (empty) line, and a
   * `\r` at the very end without a line feed stays.
   */
  function Lines(s: string): (lines: seq<string>)
    ensures forall k :: 0 <= k < |lines| ==> '\n' !in lines[k]
    ensures |s| == 0 <==> |lines| == 0
    decreases |s|
  {
    if |s| == 0 then []
    else
      match IndexOf(s, '\n')
      case None => [s]
      case Some(i) => [StripCarriageReturn(s[..i])] + Lines(s[i + 1..])
  }

  /** A line that survives `lines` unchanged: no line feed and no trailing carriage return. */
  predicate IsPlainLine(line: string)
  {
    '\n' !in line && (|line| == 0 || line[|line| - 1] != '\r')
  }

  /** Each line followed by a line feed. */
  function JoinLines(lines: seq<string>): string
  {
    if |lines| == 0 then "" else lines[0] + "\n" + JoinLines(lines[1..])
  }

  /** The first `c` after a stretch without `c`. */
  lemma IndexOfAfter(first: string, c: char, rest: string)
    requires c !in first
    ensures IndexOf(first + [c] + rest, c) == Some(|first|)
  {
    var s := first + [c] + rest;
    assert s[|first|] == c;
    assert s[..|first|] == first;
  }

  /** A plain line followed by a line feed is the first line. */
  lemma LinesCons(first: string, rest: string)
    requires IsPlainLine(first)
    ensures Lines(first + "\n" + rest) == [first] + Lines(rest)
  {
    var s := first + "\n" + rest;
    IndexOfAfter(first, '\n', rest);
    assert s[..|first|] == first;
    assert s[|first| + 1..] == rest;
  }

  /** `lines` undoes `JoinLines` for plain lines. */
  lemma {:induction false} LinesJoinLines(lines: seq<string>)
    requires forall k :: 0 <= k < |lines| ==> IsPlainLine(lines[k])
    ensures Lines(JoinLines(lines)) == lines
  {
    if |lines| > 0 {
      LinesCons(lines[0], JoinLines(lines[1..]));
      LinesJoinLines(lines[1..]);
      assert [lines[0]] + lines[1..] == lines;
    }
  }

  /** Text without a line feed is a single line. */
  lemma LinesSingle(last: string)
    requires |last| > 0 && '\n' !in last
    ensures Lines(last) == [last]
  {
    assert IndexOf(last, '\n') == None;
  }

  /** Text after joined lines extends the last of them. */
  lemma JoinLinesThen(lines: seq<string>, last: string)
    requires |lines| > 0
    ensures JoinLines(lines) + last == lines[0] + "\n" + (JoinLines(lines[1..]) + last)
  {
  }

  /** One plain line in front of text whose lines are `others` reads as that line, then `others`. */
  lemma LinesInFront(line: string, rest: string, s: string, others: seq<string>)
    requires IsPlainLine(line) && s == line + "\n" + rest
    requires Lines(rest) == others
    ensures Lines(s) == [line] + others
  {
    LinesCons(line, rest);
  }

  lemma AppendAfterHead<T>(xs: seq<T>, x: T)
    requires |xs| > 0
    ensures xs + [x] == [xs[0]] + (xs[1..] + [x])
  {
  }

  /** The final line ending is optional: a last line without a line feed comes back whole. */
  lemma {:induction false} LinesUnterminated(lines: seq<string>, last: string)
    requires forall k :: 0 <= k < |lines| ==> IsPlainLine(lines[k])
    requires |last| > 0 && '\n' !in last
    ensures Lines(JoinLines(lines) + last) == lines + [last]
  {
    if |lines| == 0 {
      assert JoinLines(lines) + last == last;
      LinesSingle(last);
    } else {
      var tail := lines[1..];
      assert forall k :: 0 <= k < |tail| ==> IsPlainLine(tail[k]) by {
        assert forall k :: 0 <= k < |tail| ==> tail[k] == lines[k + 1];
      }
      LinesUnterminated(tail, last);
      JoinLinesThen(lines, last);
      LinesInFront(lines[0], JoinLines(tail) + last, JoinLines(lines) + last, tail + [last]);
      AppendAfterHead(lines, last);
    }
  }

  /** A CRLF line ending is read like a bare line feed. */
  lemma LinesCrlf(line: string, rest: string)
    requires IsPlainLine(line)
    ensures Lines(line + "\r\n" + rest) == [line] + Lines(rest)
  {
    var s := line + "\r\n" + rest;
    assert s[|line| + 1] == '\n';
    assert '\n' !in s[..|line| + 1] by {
      assert s[..|line| + 1] == line + "\r";
    }
    assert IndexOf(s, '\n') == Some(|line| + 1);
    assert s[..|line| + 1] == line + "\r";
    assert s[|line| + 2..] == rest;
  }

  // ---------------------------------------------------------------------
  // `str::contains` and `Iterator::find`

  predicate OccursAt(s: string, pattern: string, i: nat)
  {
    i + |pattern| <= |s| && s[i..i + |pattern|] == pattern
  }

  /** `s.contains(pattern)`. */
  predicate Contains(s: string, pattern: string)
  {
    exists i :: 0 <= i <= |s| && OccursAt(s, pattern, i)
  }

  /** Index of the first line containing `pattern`, searching from `start`. */
  function FindFrom(lines: seq<string>, pattern: string, start: nat): (r: Option<nat>)
    requires start <= |lines|
    ensures r.None? <==> forall k :: start <= k < |lines| ==> !Contains(lines[k], pattern)
    ensures r.Some? ==> (start <= r.value < |lines| && Contains(lines[r.value], pattern) &&
      forall k :: start <= k < r.value ==> !Contains(lines[k], pattern))
    decreases |lines| - start
  {
    if start == |lines| then None
    else if Contains(lines[start], pattern) then Some(start)
    else FindFrom(lines, pattern, start + 1)
  }

  /** `lines.find(|line| line.contains(pattern))`, as a position. */
  function FindFirst(lines: seq<string>, pattern: string): (r: Option<nat>)
    ensures r.None? <==> forall k :: 0 <= k < |lines| ==> !Contains(lines[k], pattern)
    ensures r.Some? ==> (r.value < |lines| && Contains(lines[r.value], pattern) &&
      forall k :: 0 <= k < r.value ==> !Contains(lines[k], pattern))
  {
    FindFrom(lines, pattern, 0)
  }

  // ---------------------------------------------------------------------
  // `split(':').nth(1)`

  /** `field` follows the first colon of `s`, at position `i`, and runs up to the next colon or the end. */
  predicate FieldAfterColon(s: string, i: nat, field: string)
  {
    i < |s| && s[i] == ':' && ':' !in s[..i] &&
    i + 1 + |field| <= |s| && s[i + 1..i + 1 + |field|] == field &&
    (i + 1 + |field| == |s| || s[i + 1 + |field|] == ':')
  }

  /** The second `:`-separated field of `s`: between its first and second colon, or to the end. */
  function SecondField(s: string): (r: Option<string>)
    ensures r.None? <==> ':' !in s
    ensures r.Some? ==> ':' !in r.value
    ensures r.Some? ==> exists i :: 0 <= i < |s| && FieldAfterColon(s, i, r.value)
  {
    match IndexOf(s, ':')
    case None => None
    case Some(i) =>
      var rest := s[i + 1..];
      match IndexOf(rest, ':')
      case None =>
        assert FieldAfterColon(s, i, rest);
        Some(rest)
      case Some(j) =>
        assert FieldAfterColon(s, i, rest[..j]);
        Some(rest[..j])
  }

  /** The field after a name without colons is recovered, whatever follows the next colon. */
  lemma SecondFieldOf(name: string, field: string, tail: string)
    requires ':' !in name && ':' !in field
    ensures SecondField(name + ":" + field) == Some(field)
    ensures SecondField(name + ":" + field + ":" + tail) == Some(field)
  {
    SecondFieldAfterName(name, field);
    var rest := field + ":" + tail;
    SecondFieldAfterName(name, rest);
    assert name + ":" + field + ":" + tail == name + ":" + rest;
    assert rest[..|field|] == field;
    IndexOfAt(rest, ':', |field|);
  }

  /** After a name without colons, the first colon is the one that follows the name. */
  lemma SecondFieldAfterName(name: string, rest: string)
    requires ':' !in name
    ensures IndexOf(name + ":" + rest, ':') == Some(|name|)
    ensures (name + ":" + rest)[|name| + 1..] == rest
  {
    var s := name + ":" + rest;
    assert s[..|name|] == name;
    IndexOfAt(s, ':', |name|);
  }

  /** A `c` with none before it is the first one. */
  lemma IndexOfAt(s: string, c: char, i: nat)
    requires i < |s| && s[i] == c && c !in s[..i]
    ensures IndexOf(s, c) == Some(i)
  {
    assert c in s;
    var r := IndexOf(s, c).value;
    assert forall m :: 0 <= m < i ==> s[m] == s[..i][m] != c;
    assert forall m :: 0 <= m < r ==> s[m] == s[..r][m] != c;
  }

  // ---------------------------------------------------------------------
  // `str::trim`

  /** Number of whitespace characters at the start of `s`. */
  function LeadingSpace(s: string): (n: nat)
    ensures n <= |s|
    ensures forall i :: 0 <= i < n ==> IsWhitespace(s[i])
    ensures n < |s| ==> !IsWhitespace(s[n])
  {
    if |s| > 0 && IsWhitespace(s[0]) then 1 + LeadingSpace(s[1..]) else 0
  }

  /** Position where the whitespace run at the end of `s` begins. */
  function TrailingStart(s: string): (n: nat)
    ensures n <= |s|
    ensures forall i :: n <= i < |s| ==> IsWhitespace(s[i])
    ensures n > 0 ==> !IsWhitespace(s[n - 1])
  {
    if |s| > 0 && IsWhitespace(s[|s| - 1]) then TrailingStart(s[..|s| - 1]) else |s|
  }

  /** `trim_start`: drop leading whitespace. */
  function TrimStart(s: string): string
  {
    s[LeadingSpace(s)..]
  }

  /** `trim_end`: drop trailing whitespace. */
  function TrimEnd(s: string): string
  {
    s[..TrailingStart(s)]
  }

  /** `r` is the slice of `s` from `a` on, with only whitespace around it. */
  predicate Trimmed(s: string, a: nat, r: string)
  {
    a + |r| <= |s| && r == s[a..a + |r|] &&
    (forall i :: 0 <= i < a ==> IsWhitespace(s[i])) &&
    (forall i :: a + |r| <= i < |s| ==> IsWhitespace(s[i]))
  }

  /**
   * `trim`: the slice of `s` left after removing whitespace at both ends;
   * it starts and ends with a non-whitespace character unless empty.
   */
  function Trim(s: string): (r: string)
    ensures Trimmed(s, LeadingSpace(s), r)
    ensures |r| > 0 ==> !IsWhitespace(r[0]) && !IsWhitespace(r[|r| - 1])
  {
    TrimEndOfSuffix(s, LeadingSpace(s));
    TrimEnd(TrimStart(s))
  }

  /** Trimming the end of the suffix of `s` from `a` on leaves a slice of `s` followed only by whitespace. */
  lemma TrimEndOfSuffix(s: string, a: nat)
    requires a <= |s|
    ensures var r := TrimEnd(s[a..]);
      a + |r| <= |s| && r == s[a..a + |r|] &&
      (forall i :: a + |r| <= i < |s| ==> IsWhitespace(s[i])) &&
      (|r| > 0 ==> r[0] == s[a] && !IsWhitespace(r[|r| - 1]))
  {
    var t := s[a..];
    var b := TrailingStart(t);
    assert t[..b] == s[a..a + b];
    forall i | a + b <= i < |s| ensures IsWhitespace(s[i]) {
      assert s[i] == t[i - a];
    }
  }

  /** Trimming twice is trimming once. */
  lemma TrimIdempotent(s: string)
    ensures Trim(Trim(s)) == Trim(s)
  {
    var r := Trim(s);
    if |r| > 0 {
      assert LeadingSpace(r) == 0;
      assert TrailingStart(r) == |r|;
    }
  }

  /** Text with no whitespace at either end is left alone. */
  lemma TrimUntouched(s: string)
    requires |s| == 0 || (!IsWhitespace(s[0]) && !IsWhitespace(s[|s| - 1]))
    ensures Trim(s) == s
  {
    if |s| > 0 {
      assert LeadingSpace(s) == 0;
      assert TrailingStart(s) == |s|;
    }
  }

  // ---------------------------------------------------------------------
  // `str::split_whitespace`

  /** Length of the leading run of non-whitespace characters. */
  function TokenLen(s: string): (n: nat)
    ensures n <= |s|
    ensures forall i :: 0 <= i < n ==> !IsWhitespace(s[i])
    ensures n < |s| ==> IsWhitespace(s[n])
  {
    if |s| == 0 || IsWhitespace(s[0]) then 0 else 1 + TokenLen(s[1..])
  }

  /** `split_whitespace`: the maximal non-empty runs of non-whitespace characters, in order. */
  function Tokens(s: string): (tokens: seq<string>)
    ensures |tokens| == 0 <==> LeadingSpace(s) == |s|
    decreases |s|
  {
    var t := TrimStart(s);
    if |t| == 0 then []
    else
      var n := TokenLen(t);
      [t[..n]] + Tokens(t[n..])
  }

  /** A whitespace prefix is as long as the run of whitespace it starts. */
  lemma {:induction false} LeadingSpaceAppend(w: string, s: string)
    requires forall i :: 0 <= i < |w| ==> IsWhitespace(w[i])
    ensures LeadingSpace(w + s) == |w| + LeadingSpace(s)
  {
    if |w| > 0 {
      assert (w + s)[0] == w[0];
      assert (w + s)[1..] == w[1..] + s;
      LeadingSpaceAppend(w[1..], s);
    } else {
      assert w + s == s;
    }
  }

  /** Whitespace in front, of any kind and length, does not change the tokens. */
  lemma TokensSkipWhitespace(w: string, s: string)
    requires forall i :: 0 <= i < |w| ==> IsWhitespace(w[i])
    ensures Tokens(w + s) == Tokens(s)
  {
    LeadingSpaceAppend(w, s);
    assert TrimStart(w + s) == TrimStart(s);
  }

  /** Every token is a word. */
  lemma {:induction false} TokensAreWords(s: string)
    ensures forall k :: 0 <= k < |Tokens(s)| ==> IsWord(Tokens(s)[k])
    decreases |s|
  {
    var t := TrimStart(s);
    if |t| > 0 {
      var n := TokenLen(t);
      var head := t[..n];
      assert IsWord(head) by {
        assert forall i :: 0 <= i < n ==> head[i] == t[i];
      }
      TokensAreWords(t[n..]);
      assert Tokens(s) == [head] + Tokens(t[n..]);
    }
  }

  /** Tokens joined by single spaces. */
  function JoinSpaced(tokens: seq<string>): string
  {
    if |tokens| == 0 then ""
    else if |tokens| == 1 then tokens[0]
    else tokens[0] + " " + JoinSpaced(tokens[1..])
  }

  lemma {:induction false} TokenLenOf(token: string, rest: string)
    requires NoWhitespace(token)
    requires |rest| == 0 || IsWhitespace(rest[0])
    ensures TokenLen(token + rest) == |token|
    decreases |token|
  {
    if |token| > 0 {
      assert (token + rest)[1..] == token[1..] + rest;
      TokenLenOf(token[1..], rest);
    } else {
      assert token + rest == rest;
    }
  }

  /** A whitespace-free token followed by whitespace or nothing is the first token. */
  lemma TokensCons(token: string, rest: string)
    requires |token| > 0 && NoWhitespace(token)
    requires |rest| == 0 || IsWhitespace(rest[0])
    ensures Tokens(token + rest) == [token] + Tokens(rest)
  {
    var s := token + rest;
    assert s[0] == token[0];
    TokensStep(s);
    TokenLenOf(token, rest);
    assert s[..|token|] == token;
    assert s[|token|..] == rest;
  }

  /** Text that starts with a non-whitespace character begins with its first token. */
  lemma TokensStep(s: string)
    requires |s| > 0 && !IsWhitespace(s[0])
    ensures Tokens(s) == [s[..TokenLen(s)]] + Tokens(s[TokenLen(s)..])
  {
    assert LeadingSpace(s) == 0;
    assert TrimStart(s) == s;
  }

  lemma TokensLeadingSpace(s: string)
    ensures Tokens(" " + s) == Tokens(s)
  {
    assert (" " + s)[1..] == s;
    assert TrimStart(" " + s) == TrimStart(s);
  }

  /** A word, a space and more text: the word is the first token. */
  lemma TokensSpaceCons(first: string, rest: string)
    requires |first| > 0 && NoWhitespace(first)
    ensures Tokens(first + " " + rest) == [first] + Tokens(rest)
  {
    calc {
      Tokens(first + " " + rest);
      { assert first + " " + rest == first + (" " + rest); }
      Tokens(first + (" " + rest));
      { TokensCons(first, " " + rest); }
      [first] + Tokens(" " + rest);
      { TokensLeadingSpace(rest); }
      [first] + Tokens(rest);
    }
  }

  /** A single word is a single token. */
  lemma TokensWord(word: string)
    requires |word| > 0 && NoWhitespace(word)
    ensures Tokens(word) == [word]
  {
    TokensCons(word, "");
    assert word + "" == word;
    assert TrimStart("") == "";
  }

  lemma JoinSpacedCons(first: string, others: seq<string>)
    requires |others| > 0
    ensures JoinSpaced([first] + others) == first + " " + JoinSpaced(others)
  {
    assert ([first] + others)[1..] == others;
  }

  /** `split_whitespace` undoes joining non-empty whitespace-free tokens with spaces. */
  lemma {:induction false} TokensJoinSpaced(tokens: seq<string>)
    requires forall k :: 0 <= k < |tokens| ==> |tokens[k]| > 0 && NoWhitespace(tokens[k])
    ensures Tokens(JoinSpaced(tokens)) == tokens
  {
    if |tokens| == 0 {
      assert JoinSpaced(tokens) == "";
      assert TrimStart("") == "";
    } else if |tokens| == 1 {
      TokensWord(tokens[0]);
    } else {
      var others := tokens[1..];
      assert tokens == [tokens[0]] + others;
      JoinSpacedCons(tokens[0], others);
      TokensSpaceCons(tokens[0], JoinSpaced(others));
      TokensJoinSpaced(others);
    }
  }

  /** Two words separated by one space are two tokens. */
  lemma TokensPair(a: string, b: string)
    requires |a| > 0 && NoWhitespace(a)
    requires |b| > 0 && NoWhitespace(b)
    ensures Tokens(a + " " + b) == [a, b]
  {
    TokensSpaceCons(a, b);
    TokensWord(b);
    assert [a] + [b] == [a, b];
  }
}
